=== FILE: README.md ===
# Duty schedule processor — a verified model

The processor turns one day of a fire-station duty roster into the day's
duty distribution sheet. It lists the roster's date sheets (names of four
digits, `MMDD`), reads one of them as a grid of cells, formats the
personnel IDs it finds there (`10.14.1` becomes `10,14,01`), cleans up the
remarks and dispatch texts, collects the vehicle-maintenance lines, and
writes everything into fixed cells of a template worksheet. It also names
the output file `[2026MMDD] 屏二分隊勤務分配表.xlsx`.

The model follows `processor.py` function by function:

- `strings.dfy`: `Options` (Option/Result) and `Strings`. These are the
  Python built-ins the processor relies on: `str.strip`/`lstrip`/`rstrip`,
  `replace`, `join`, `in`, decimal rendering and `f"{n:02d}"`. Whitespace is
  the exact set of code points `str.isspace()` accepts.
- `cells.dfy`: a cell is `Empty` (NaN), `Num(n)` or `Text(s)`. `CellStr` is
  `str(value)` and `IsTruthy` is Python truthiness.
- `idformat.dfy`: `format_number`, `parse_duty_string` and
  `parse_rescue_numbers`. It also holds the token rule they share with the
  dispatch rewrite. `re.split(r'[.\s]+')` is `SplitSeparators`.
- `textrules.dfy`: the remarks chain, the dispatch `re.sub` rewrite and the
  vehicle line of `extract_duty_data`. These are lifted out as pure functions.
- `dates.dfy`: `get_available_dates` and the output file name.
- `extractor.dfy`: `find_column_by_header` (a scanning loop with early
  return) and `extract_duty_data`, on a `Sheet` of rows of cells.
- `filler.dfy`: `fill_distribution_table`. It is a `Worksheet` class whose
  `cells` map is updated in place.
- `pipeline.dfy`: `process_files`, with its two failure cases.

The loop-based source functions are methods. `ParseDutyString`,
`ParseRescueNumbers`, `FindColumnByHeader` and `ExtractDutyData` are each
proved equal to a specification function. `Worksheet.FillDistributionTable`
is proved to leave the worksheet equal to a specification function of the
old cells. The lemmas then state what the program promises about those
functions. `GetAvailableDates` is specified directly. Its result is sorted,
it is a permutation of the sheet names that are date keys, and it is in
calendar order.

## Model

| member | source | states |
|---|---|---|
| Dates.GetAvailableDates | processor.py:14-29 | the result is sorted ascending and holds exactly the four-digit sheet names, each as often as in the workbook; sorted means ascending by numeric (calendar) value |
| Dates.IsDateKey | processor.py:26 | `re.match(r'^\d{4}$', name)`, for ASCII digits and without the final newline `$` admits: exactly four digits |
| Dates.StrLe | processor.py:28 | Python's `<=` on strings: lexicographic by code point, a proper prefix first |
| Dates.DateSheets | processor.py:26 | the filter keeps a name iff it is in the list and matches `^\d{4}$` |
| Dates.SortStrings | processor.py:28 | the sort returns a string-ordered permutation of its input |
| Dates.Insert | processor.py:28 | inserting into a sorted list keeps it sorted and adds exactly one element |
| Dates.InsertStep | processor.py:28 | putting the smallest element back in front of the rest with `x` inserted keeps the list sorted and adds exactly `x` |
| Dates.DateKeyOrder | processor.py:26-28 | for four-digit keys, string order is the order of their numeric values |
| Dates.StrLeKeys | processor.py:28 | `<=` on two four-character strings compares them character by character, from the left |
| Dates.LexDigits | processor.py:26-28 | (proof step) comparing four decimal digits one at a time from the left agrees with comparing the numbers they spell |
| Dates.SortedAscending | processor.py:28 | a list sorted between neighbours is ascending between any two positions |
| Dates.StrLeTotal | processor.py:28 | Python's string order is total |
| Dates.StrLeTransitive | processor.py:28 | Python's string order is transitive |
| Dates.StrLeAntisymmetric | processor.py:28 | Python's string order is antisymmetric |
| Dates.SuggestedFilename | processor.py:354-356 | `f"[2026{month}{day}] 屏二分隊勤務分配表.xlsx"` with `month, day = date_sheet[:2], date_sheet[2:]` |
| Dates.FilenameEmbedsKey | processor.py:354-356 | `date_sheet[:2] + date_sheet[2:]` is the whole key, so the name is `[2026` + key + `] 屏二分隊勤務分配表.xlsx` for any key length |
| Dates.FilenameInjective | processor.py:354-356 | different date sheets never get the same file name |
| Dates.FilenameDateToken | processor.py:354-356 | for a date key, characters 1-8 of the name are the eight digits `2026MMDD`, between `[` and `]` |
| Strings.IsSpace | processor.py:73 | the whitespace of `\s` in `re.split(r'[.\s]+')` and of `str.strip()`: Python's `str.isspace()` code points (`\t` to `\r`, `\x1c` to space, `\x85`, `\xa0`, U+1680, U+2000 to U+200A, U+2028, U+2029, U+202F, U+205F, U+3000) |
| Strings.Strip | processor.py:66 | `str.strip()`: leading and trailing whitespace removed |
| Strings.LStrip | processor.py:202 | the `\s*` after the remarks label: drops leading whitespace; the result is no longer than the input and does not start with whitespace |
| Strings.RStrip | processor.py:49 | the trailing half of `str(value).strip()` (also `part.strip()` at line 77): the result is no longer than the input and does not end with whitespace |
| Strings.RStripChar | processor.py:208 | `remarks.rstrip('。')`: the result is no longer than the input and does not end with the stripped character |
| Strings.Join | processor.py:85 | `sep.join(xs)` |
| Strings.ReplaceAll | processor.py:204-206 | `s.replace(pat, rep)`: left to right, non-overlapping occurrences |
| Cells.CellStr | processor.py:193 | `str(value)` of a cell |
| Cells.IsTruthy | processor.py:238-241 | Python truthiness of a cell value once a missing one is `""` |
| Strings.NatToString | processor.py:47 | `str(n)` is a digit string worth `n`, without a leading zero, one digit exactly below 10 |
| Strings.Pad2 | processor.py:47 | `f"{n:02d}"` is a digit string worth `n`, at least two digits, exactly two below 100, and plain `str(n)` from 10 on |
| Strings.LStripSuffix | processor.py:202 | `lstrip` keeps a suffix and drops only whitespace |
| Strings.RStripPrefix | processor.py:66 | `rstrip` keeps a prefix and drops only whitespace |
| Strings.RStripCharPrefix | processor.py:208 | `rstrip('。')` keeps a prefix and drops only `。` |
| Strings.RemoveChars | processor.py:127 | removing `'\n'` and `' '` leaves none of them |
| Strings.RemoveCharsAppend | processor.py:127 | removal distributes over concatenation, so the kept characters stay in order |
| Strings.RemoveCharsSingle | processor.py:127 | a single character is dropped when it is removed and kept otherwise |
| Strings.RemoveCharsNone | processor.py:127 | a header text without line breaks or spaces is kept whole |
| Strings.Contains | processor.py:129 | `keyword in cell_str`: the keyword is a prefix of some suffix of the text; the empty keyword is in every text |
| Strings.ContainsSpec | processor.py:129 | `keyword in cell_str` holds exactly when the keyword occurs at some index |
| IdFormat.FormatNumber | processor.py:32-49 | missing gives `""`; a number `n` gives digits worth `n`, at least two, exactly two below 100 |
| IdFormat.FormatNumberTextNotPadded | processor.py:45-49 | text that already reads as a number is only stripped, not padded |
| IdFormat.BlankGivesEmpty | processor.py:42-68 | missing or blank input gives `""` from `format_number` and `parse_duty_string` |
| IdFormat.FormatToken | processor.py:78-83 | a numeric token keeps its value and gets two digits below 100; a non-numeric token passes through unchanged |
| IdFormat.IsSeparator | processor.py:73 | the class `[.\s]`: a full stop or a whitespace character |
| IdFormat.SplitSeparators | processor.py:73 | `re.split(r'[.\s]+')` gives at least one piece, and no piece holds a separator; what the pieces are is stated by `SplitSeparatorsSpec` and `SplitRunsRoundTrip` for text holding at least one ID, and by `SplitOfSeparators` for text without one |
| IdFormat.SplitSeparatorsSpec | processor.py:73 | the pieces concatenated are the input without its separators; the first piece is empty iff the input is empty or starts with a separator, the last iff it is empty or ends with one, and no piece in between is empty |
| IdFormat.SplitSeparatorsConcat | processor.py:73 | the pieces concatenated are the input with its separators removed |
| IdFormat.SplitSeparatorsEdges | processor.py:73 | empty pieces appear exactly at a leading or trailing run, never in between |
| IdFormat.SplitFirstPiece | processor.py:73 | the first piece is empty iff the input is empty or starts with a separator |
| IdFormat.SplitLastPiece | processor.py:73 | the last piece is empty iff the input is empty or ends with a separator |
| IdFormat.SplitInteriorPieces | processor.py:73 | no piece between the first and the last is empty |
| IdFormat.SplitFirst | processor.py:73 | a token (possibly empty), a run of separators and further text that is empty or starts with a non-separator split into the token followed by the pieces of that text |
| IdFormat.SplitInterleave | processor.py:73 | tokens with any non-empty run of `.`/whitespace between each pair, and an optional trailing run, split back into the tokens in order, plus one empty piece for the trailing run |
| IdFormat.SplitRunsRoundTrip | processor.py:73 | the same with an optional leading run too: an empty piece for each leading or trailing run, and the tokens in order between them |
| IdFormat.FormatPartsAppend | processor.py:76-83 | the loop over the pieces works piece by piece: the list for `a + b` is the list for `a` followed by the list for `b` |
| IdFormat.FormatPartsOfTokens | processor.py:76-83 | on a list of tokens the loop gives exactly the formatted tokens, one per token, in order |
| IdFormat.FormatPart | processor.py:75-83 | one pass of the loop over the pieces: the piece is stripped; an empty piece adds nothing, any other adds its formatted token |
| IdFormat.FormatParts | processor.py:75-83 | `formatted_parts` after the loop: the formatted pieces in order, empty pieces skipped |
| IdFormat.IdListOfRuns | processor.py:73-85 | whatever runs of `.`/whitespace separate the tokens, and whether or not a run leads or trails, the result is the `,`-join of the formatted tokens, in order |
| IdFormat.SplitOfSeparators | processor.py:73 | empty text splits into the one piece `""`; text made only of separators splits into two empty pieces |
| IdFormat.IdListOfSeparators | processor.py:73-85 | text made only of separators gives `""` |
| IdFormat.IdListOfThree | processor.py:72-85 | three tokens separated by any two runs of `.`/whitespace give their formatted forms joined by `,` |
| IdFormat.IdList | processor.py:72-85 | the ID-list rule: split on runs of `.`/whitespace, strip each piece, skip empty ones, format the rest and join them with `,` |
| IdFormat.DutyString | processor.py:52-85 | `parse_duty_string`: a missing or blank value gives `""`, otherwise the ID-list rule on `str(value).strip()` |
| IdFormat.DutyStringOfText | processor.py:63-72 | (proof step) a non-empty text value with no surrounding whitespace goes to the ID-list rule as it is |
| IdFormat.FormatPieces | processor.py:76-83 | the append loop over the split pieces builds the specified list |
| IdFormat.ParseDutyString | processor.py:52-85 | `parse_duty_string` returns the value its specification function gives |
| IdFormat.DutyStringOfNumber | processor.py:63-85 | a numeric cell gives the same two-digit text as `format_number` |
| IdFormat.IdListExample | processor.py:55 | `"10.14.1"` becomes `"10,14,01"` |
| IdFormat.IdListMixedRunsExample | processor.py:72 | `"10. 14.1"` also becomes `"10,14,01"` |
| IdFormat.IdListSpacedExample | processor.py:220-230 | ` 10.1 `, as inside a dispatch group, becomes `"10,01"`: the leading and trailing spaces add no token |
| IdFormat.DutyStringExamples | processor.py:55 | `parse_duty_string("10.14.1")` is `"10,14,01"` |
| IdFormat.PlainDecimal | processor.py:104 | the text `float(val)` reads as a plain decimal: digits with at most one point and at least one digit in all (`8`, `8.5`, `8.`, `.5`) |
| IdFormat.NumericValue | processor.py:101-106 | a missing cell never converts; a numeric cell converts to its value; digit text converts to the number it spells |
| IdFormat.DecimalTruncates | processor.py:104 | `int(float("8.5"))`: a decimal converts to its whole part, its fraction dropped |
| IdFormat.WordDoesNotConvert | processor.py:104-107 | text with no digit and no whitespace does not convert |
| IdFormat.RescueItems | processor.py:99-107 | `numbers` after the loop over the two values: one two-digit entry for each value that converts, in order; the others add nothing |
| IdFormat.RescueString | processor.py:99-109 | `parse_rescue_numbers`: the padded values of the arguments that convert, in order, joined by `,` |
| IdFormat.ParseRescueNumbers | processor.py:88-109 | `parse_rescue_numbers` returns the value its specification function gives |
| IdFormat.RescueCases | processor.py:99-109 | at most two items, val1's before val2's; each is the padded value of an argument that converts, and the others are dropped |
| IdFormat.RescueExamples | processor.py:99-109 | (8,20) gives `"08,20"`, (None,20) gives `"20"`, (None,None) gives `""` |
| IdFormat.RescueTextExamples | processor.py:101-107 | an unparseable first value (`"x"`) is dropped, and `"8.5"` gives `"08"` |
| IdFormat.RescueWordExample | processor.py:104-107 | `("x", 3)` gives `"03"`: the word is dropped |
| IdFormat.RescueDecimalExample | processor.py:104-105 | `("8.5", None)` gives `"08"` |
| IdFormat.DecimalExampleValue | processor.py:104 | `int(float("8.5"))` is 8 |
| TextRules.HasRemarksLabel | processor.py:202 | the text starts with `備註` followed by `:` or `：`, the prefix `^備註[:：]` matches |
| TextRules.StripRemarksLabel | processor.py:202 | `re.sub(r'^備註[:：]\s*', '', s)`: a leading label with its colon and the whitespace after it is removed, other text is kept |
| TextRules.NormalizeRemarks | processor.py:202-208 | the remarks chain: label removed, `。※` to `\n※`, `：` to `:`, trailing `。` removed, in that order |
| TextRules.NormalizeRemarksStages | processor.py:202-208 | (proof step) the remarks result is the trailing-`。` strip of the three replacements applied in order |
| TextRules.StripRemarksLabelSpec | processor.py:202 | one leading `備註` with `:` or `：` and the whitespace after it is removed |
| TextRules.StripRemarksLabelUnchanged | processor.py:202 | the label rule leaves the text unchanged exactly when it does not start with `備註` and a colon |
| TextRules.NormalizeRemarksClean | processor.py:202-208 | cleaned remarks hold no `：`, no `。※` pair, and do not end with `。` |
| TextRules.ReplaceMarkerNoPair | processor.py:204 | after `replace('。※', '\n※')` no `。※` pair is left |
| TextRules.ReplaceMarkerPointwise | processor.py:204 | `replace('。※', '\n※')` keeps the length, turns the `。` of each `。※` into `\n` and keeps every other character where it was |
| TextRules.ReplaceCharPointwise | processor.py:206 | `replace('：', ':')` changes exactly the full-width colons |
| TextRules.RemarksExample | processor.py:202-208 | `備註:晨間訓練。※注意。` becomes `晨間訓練\n※注意` |
| TextRules.NormalizeDispatch | processor.py:232 | `re.sub(r'\(([^)]+)\)', …)`: left to right, each `(`, one or more characters other than `)`, `)` has its content rewritten by the ID-list rule; everything else is copied |
| TextRules.DispatchPrefix | processor.py:232 | a prefix in which no group starts, including a `(` that opens none as in `()`, is copied and the scan goes on after it |
| TextRules.DispatchCopyFirst | processor.py:232 | (proof step) where no group starts, the first character is copied as it is |
| TextRules.GroupAt | processor.py:230 | a match of `\(([^)]+)\)` starts at the index: an opening parenthesis, a character after it that is not `)`, and a `)` later on |
| TextRules.DispatchWithoutGroupUnchanged | processor.py:232 | dispatch text without a `(…)` group is returned unchanged |
| TextRules.DispatchGroup | processor.py:217-232 | after text in which no group starts, a group's content is rewritten by the ID-list rule and re-wrapped; the text before it is unchanged and the rest is rewritten on its own |
| TextRules.DispatchGroupAfterText | processor.py:217-232 | the same when the text before the group holds no `(` |
| TextRules.DispatchExample | processor.py:216-232 | `16車(10.14.1)` becomes `16車(10,14,01)` |
| Strings.IndexOf | processor.py:232 | the first occurrence of a character is found (a `)` for `[^)]+`, a `.` for a decimal): none before it |
| TextRules.VehicleLine | processor.py:242 | `f"({vehicle_type})保養車輛:{vehicle_num} 保養人:{maintainer}"` |
| Extractor.HeaderText | processor.py:127 | `str(cell_value).replace('\n', '').replace(' ', '')`: the cell's text without line breaks and spaces |
| Extractor.AnyKeyword | processor.py:128-130 | the header text contains one of the keywords, tried in order |
| Extractor.HeaderHit | processor.py:125-130 | a header cell matches when it is present (`pd.notna`) and its cleaned text contains a keyword |
| Extractor.HeaderColumn | processor.py:124-131 | `find_column_by_header`'s answer: the first column whose header cell matches, or none; with no header row the program raises unless the sheet has no columns, and `FindColumnByHeader` requires the row in that case |
| Extractor.HeaderColumnSpec | processor.py:124-131 | None iff no header cell, with `'\n'`/`' '` removed, contains a keyword; otherwise the smallest such column, within the sheet |
| Extractor.AnyKeywordSpec | processor.py:128-130 | the keyword loop succeeds exactly when some keyword is contained in the cleaned header text |
| Extractor.FirstTrueFromSpec | processor.py:124-130 | the left-to-right scan returns the first match or nothing |
| Extractor.FindColumnByHeader | processor.py:112-131 | the scanning loop with early return computes the specified column |
| Extractor.SheetColumns | processor.py:149-152 | the four column lookups: `值班` for duty, `第一救護` or `救護` for rescue, `備勤` for standby, `休息` for rest, all on header row 2 |
| Extractor.Readable | processor.py:182-212 | the sheet has rows up to 42 and more than three columns, so the fixed reads `df.iloc[i, 0]`, `df.iloc[28, 3]`, `df.iloc[30, 0]` and `df.iloc[42, 2]` exist |
| Extractor.SheetColumnsInSheet | processor.py:149-152 | every column found is inside the sheet |
| Extractor.SecondRescue | processor.py:168 | the second rescue value is the cell right of the rescue column, or nothing (`None`) when that column is the last one |
| Extractor.SlotOf | processor.py:158-187 | the slot of one row: the time cell (`""` when empty), the formatted duty, the merged rescue pair, and the standby and rest ID lists, each `""` when its column was not found |
| Extractor.ExtractSlot | processor.py:157-187 | one slot is read as specified: time, duty, rescue pair, standby, rest |
| Extractor.ExtractSlots | processor.py:156-187 | exactly 24 slots, from rows 4 to 27 in order |
| Extractor.SlotsOf | processor.py:156-187 | the slots of rows 4 to 27, in row order, each read as one slot is |
| Extractor.VehicleComplete | processor.py:238-241 | a vehicle row counts when its type (column 19), number (20) and maintainer (22) are all truthy |
| Extractor.VehicleLineOf | processor.py:242 | the line `(type)保養車輛:number 保養人:maintainer` of a complete row |
| Extractor.VehicleLinesUpTo | processor.py:235-242 | `vehicle_maintenance_list` after rows 35 up to the bound: the lines of the complete rows, in row order |
| Extractor.VehicleLines | processor.py:234-242 | the vehicle lines of rows 35 to 37; none when the sheet has 22 columns or fewer |
| Extractor.ExtractVehicleLines | processor.py:234-242 | the vehicle loop builds the specified list |
| Extractor.DutyRecordOf | processor.py:134-256 | the record `extract_duty_data` builds from a sheet |
| Extractor.ExtractDutyData | processor.py:134-256 | `extract_duty_data` returns the record its specification function gives |
| Extractor.DutyRecordSlots | processor.py:154-187 | 24 slots; a field whose header was not found is `""`; a found one uses its column and the rule of its kind |
| Extractor.DutyRecordFields | processor.py:189-246 | with 9 columns or fewer there is no compensatory-leave text; missing cells give `""`; the fixed note is never empty |
| Extractor.DutyRecordRemarksClean | processor.py:198-208 | the extracted remarks hold no `：`, no `。※`, and no trailing `。` |
| Extractor.VehicleLinesSpec | processor.py:234-243 | at most 3 lines; none when the sheet has 22 columns or fewer; each from a row 35-37 with type, number and maintainer, and one for every such row |
| Extractor.VehicleLinesInRowOrder | processor.py:236-242 | the lines follow row order 35, 36, 37 |
| Extractor.VehicleLinesUpToLength | processor.py:236-242 | each row gives at most one line |
| Extractor.VehicleLinesUpToSound | processor.py:236-242 | every line comes from a complete row |
| Extractor.VehicleLinesUpToComplete | processor.py:236-242 | every complete row gives its line |
| Filler.WriteIfSet | processor.py:285-286 | `if value: ws.cell(...)`: a non-empty value is stored as text at the position; an empty one writes nothing |
| Filler.WriteSlot | processor.py:281-297 | the four writes of slot `i` into column `i + 5`: duty in row 4, rescue in row 5, standby in row 11, rest in row 12, each only when non-empty |
| Filler.WriteSlots | processor.py:279-297 | the worksheet after the loop over the slots: each slot's writes applied in slot order |
| Filler.NotesParts | processor.py:306-319 | `remarks_parts`: the remarks, the vehicle block followed by 22 spaces, and the fixed note, each only when non-empty, in that order |
| Filler.NotesText | processor.py:321 | `remarks_text`: the parts joined with line breaks |
| Filler.Filled | processor.py:281-324 | the cells after the slot writes, the dispatch write and the notes write, each only for a non-empty value |
| Filler.Worksheet.WriteSlotCells | processor.py:281-297 | the loop body leaves the worksheet as the four writes of one slot specify: each non-empty field in its row of column `i + 5`, nothing else |
| Filler.Worksheet.FillDistributionTable | processor.py:259-331 | the worksheet afterwards is the old one with the slot, dispatch and notes writes applied |
| Filler.Worksheet.constructor | processor.py:272-273 | the loaded worksheet holds the template's cells |
| Filler.FilledFrame | processor.py:281-324 | no cell other than rows 4, 5, 11, 12 at the slot columns, (17,5) and (18,5) is added, removed or changed |
| Filler.WriteSlotsFrame | processor.py:281-298 | the slot loop leaves every cell outside its rows and columns alone |
| Filler.FilledSlotCell | processor.py:281-298 | slot `i`'s duty, rescue, standby and rest land in rows 4, 5, 11, 12 at column `i + 5`; an empty value leaves its cell alone |
| Filler.WriteSlotOther | processor.py:281-298 | one slot's writes touch only its own column |
| Filler.WriteSlotOwn | processor.py:281-298 | one slot's writes put each non-empty field in its row of the slot's column and leave the cell alone for an empty one |
| Filler.WriteSlotsCell | processor.py:281-298 | after the whole loop, slot `i`'s cell in a duty row holds that slot's field, or is unchanged when the field is empty: no other slot writes there |
| Filler.FilledDispatch | processor.py:301-302 | the dispatch text lands in (17,5) when non-empty; otherwise that cell is unchanged |
| Filler.NotesTextShape | processor.py:304-321 | the notes text is the non-empty parts in order (remarks, vehicle block + 22 spaces, fixed note), joined by line breaks |
| Filler.FilledNotes | processor.py:318-324 | with a fixed note, (18,5) is always written, with the notes text |
| Filler.FilledNotesFromSheet | processor.py:318-324 | for any extracted record, (18,5) is written |
| Pipeline.ProcessFiles | processor.py:334-358 | a missing sheet or one too small to read fails and leaves the template alone; otherwise the template is filled with the extracted record and the name is the suggested file name |

## Left out

- The Streamlit front end (`app.py`): uploads, the date picker, the download button and error display. There is no logic in it.
- Spreadsheet I/O: `pd.ExcelFile`, `pd.read_excel`, `load_workbook` and `wb.save` into `BytesIO`, and template style preservation. A workbook is a map from sheet names to grids of cells. The template is the map of its active worksheet's cells. The saved bytes are not modelled.
- `IdFormat.FormatToken`: a token of `parse_duty_string` or of a dispatch group counts as a number only when it is ASCII digits (tokens never hold `.` or whitespace, since the split removed them). Python also converts signs (`+5`), exponents (`1e1`), underscores (`1_0`) and other Unicode digits (`１０`); the model passes such tokens through unchanged. The token `inf` makes the program raise `OverflowError`; the model passes it through too. A digit token above 2^53 is kept exact by the model, where `int(float(p))` rounds it to the nearest double; `DutyString(Num(n))` has the same gap: `str(n)` gives the exact digits, and `int(float(part))` at processor.py:80 then rounds them as it does for a text token.
- `IdFormat.NumericValue`: `int(float(val))` in `parse_rescue_numbers` is modelled for whole numbers and plain decimal text (`8`, `8.5`, `8.`, `.5`, surrounded by whitespace or not). Signs, exponents, underscores and non-ASCII digits are treated as not convertible, so the value is dropped. Text `inf` would make the program raise; the model drops it. Integers above 2^53 are taken exactly, where `float` would round them.
- Negative numbers and float-typed cells are not modelled. A float column's `str()` gives `"10.0"`, and `f"{-3:02d}"` gives `"-3"`. Cells are `Num(n)` with `n` a natural number.
- `Dates.IsDateKey`: accepts exactly four ASCII digits. The program's `\d` also accepts other Unicode decimal digits, so a full-width name such as `０１２０` passes its filter. Its `$` also matches before a final newline, so `"0101\n"` passes too. The model leaves both out.
- `IdFormat.SplitSeparators`: the function's own contract states only that there is at least one piece and that no piece holds a separator. What the pieces are is stated by `SplitSeparatorsSpec` and `SplitRunsRoundTrip` for text holding at least one ID, and by `SplitOfSeparators` for empty or separator-only text. These are separate lemmas so that the proofs about literal texts stay small.
- Every time and rotation value is a cell, not a date or time object.
- `Dates.GetAvailableDates`: `list.sort()` is modelled as an insertion sort on a sequence. The list is local, so sorting it in place is unobservable.
- `Extractor.HeaderColumn`: answers None when the sheet lacks the header row, where `find_column_by_header` raises an index error unless the sheet has no columns. `FindColumnByHeader`, the model of the loop itself, requires the header row in that case, as the program does.
- `Pipeline.ProcessFiles`: the program raises on a missing sheet or a sheet too small for its fixed reads. The model returns these as `Failure` values. A template without an active worksheet is not modelled. Also, read errors happen before anything is written. So the model's "template unchanged on failure" holds because the program saves nothing on failure.
- Out-of-range reads: `extract_duty_data` reads rows 28, 30 and 42 and columns 0-3 without bounds checks (processor.py:192, 199, 212), so a shorter sheet raises. The model requires at least 43 rows and 4 columns (`Extractor.Readable`); `Pipeline.ProcessFiles` returns the other sheets as `SheetUnreadable`.

=== FILE: cells.dfy ===
/** A spreadsheet cell as the processor sees it after the spreadsheet library
    has read it: missing (pandas' NaN), a whole number, or text. */
module Cells {
  import opened Strings

  datatype Cell = Empty | Num(n: nat) | Text(s: string)

  /** `str(value)`. Every caller in the processor checks for a missing value
      first; `str` of NaN is "nan". */
  function CellStr(c: Cell): string {
    match c
    case Empty => "nan"
    case Num(n) => NatToString(n)
    case Text(s) => s
  }

  /** Python truthiness of a cell value after a missing value has been
      replaced by "": zero and the empty string are false. */
  predicate IsTruthy(c: Cell) {
    match c
    case Empty => false
    case Num(n) => n != 0
    case Text(s) => s != ""
  }
}

=== FILE: dates.dfy ===
/** Date sheets and the output file name: `get_available_dates`
    (processor.py:14-29) and the name built by `process_files`
    (processor.py:352-356). */
module Dates {
  import opened Strings

  /** `re.match(r'^\d{4}$', name)`: exactly four digits. */
  predicate IsDateKey(name: string) {
    |name| == 4 && forall i :: 0 <= i < 4 ==> IsAsciiDigit(name[i])
  }

  /** Python's `a <= b` on strings: lexicographic by code point, a proper
      prefix coming first. */
  predicate StrLe(a: string, b: string)
    decreases |a|
  {
    a == [] || (b != [] && (a[0] < b[0] || (a[0] == b[0] && StrLe(a[1..], b[1..]))))
  }

  lemma {:induction false} StrLeTotal(a: string, b: string)
    ensures StrLe(a, b) || StrLe(b, a)
    decreases |a|
  {
    if a != [] && b != [] && a[0] == b[0] {
      StrLeTotal(a[1..], b[1..]);
    }
  }

  lemma {:induction false} StrLeTransitive(a: string, b: string, c: string)
    requires StrLe(a, b) && StrLe(b, c)
    ensures StrLe(a, c)
    decreases |a|
  {
    if a != [] && a[0] == b[0] && b[0] == c[0] {
      StrLeTransitive(a[1..], b[1..], c[1..]);
    }
  }

  lemma {:induction false} StrLeAntisymmetric(a: string, b: string)
    requires StrLe(a, b) && StrLe(b, a)
    ensures a == b
    decreases |a|
  {
    if a != [] {
      StrLeAntisymmetric(a[1..], b[1..]);
      assert a == [a[0]] + a[1..] && b == [b[0]] + b[1..];
    }
  }

  /** The value of a four-digit key, digit by digit. */
  lemma DateKeyValue(a: string)
    requires IsDateKey(a)
    ensures DigitsValue(a) == 1000 * DigitValue(a[0]) + 100 * DigitValue(a[1]) + 10 * DigitValue(a[2]) + DigitValue(a[3])
  {
    var a3, a2, a1 := a[..3], a[..2], a[..1];
    assert a3[..2] == a2 && a2[..1] == a1 && a1[..0] == [];
    assert DigitsValue(a1) == DigitValue(a[0]);
    assert DigitsValue(a2) == DigitsValue(a1) * 10 + DigitValue(a[1]);
    assert DigitsValue(a3) == DigitsValue(a2) * 10 + DigitValue(a[2]);
    assert a[..4] == a;
  }

  /** For four-digit keys (zero-padded month and day) the string order is
      the order of their numeric values, that is, the calendar order. */
  lemma DateKeyOrder(a: string, b: string)
    requires IsDateKey(a) && IsDateKey(b)
    ensures StrLe(a, b) <==> DigitsValue(a) <= DigitsValue(b)
  {
    StrLeKeys(a, b);
    DateKeyValue(a);
    DateKeyValue(b);
    assert IsAsciiDigit(a[0]) && IsAsciiDigit(a[1]) && IsAsciiDigit(a[2]) && IsAsciiDigit(a[3]);
    assert IsAsciiDigit(b[0]) && IsAsciiDigit(b[1]) && IsAsciiDigit(b[2]) && IsAsciiDigit(b[3]);
    LexDigits(DigitValue(a[0]), DigitValue(a[1]), DigitValue(a[2]), DigitValue(a[3]),
              DigitValue(b[0]), DigitValue(b[1]), DigitValue(b[2]), DigitValue(b[3]));
  }

  /** `<=` on two four-character strings, character by character. */
  lemma StrLeKeys(a: string, b: string)
    requires |a| == 4 && |b| == 4
    ensures StrLe(a, b) <==>
      a[0] < b[0] || (a[0] == b[0] && (a[1] < b[1] || (a[1] == b[1] && (a[2] < b[2] || (a[2] == b[2] && a[3] <= b[3])))))
  {
    var a1, b1 := a[1..], b[1..];
    var a2, b2 := a1[1..], b1[1..];
    var a3, b3 := a2[1..], b2[1..];
    assert a3[1..] == [] && b3[1..] == [];
    assert StrLe(a3, b3) <==> a[3] <= b[3];
    assert StrLe(a2, b2) <==> a[2] < b[2] || (a[2] == b[2] && a[3] <= b[3]);
    assert StrLe(a1, b1) <==> a[1] < b[1] || (a[1] == b[1] && StrLe(a2, b2));
  }

  /** Comparing four decimal digits one by one compares the numbers they
      spell. */
  lemma LexDigits(x0: int, x1: int, x2: int, x3: int, y0: int, y1: int, y2: int, y3: int)
    requires 0 <= x0 <= 9 && 0 <= x1 <= 9 && 0 <= x2 <= 9 && 0 <= x3 <= 9
    requires 0 <= y0 <= 9 && 0 <= y1 <= 9 && 0 <= y2 <= 9 && 0 <= y3 <= 9
    ensures (x0 < y0 || (x0 == y0 && (x1 < y1 || (x1 == y1 && (x2 < y2 || (x2 == y2 && x3 <= y3))))))
        <==> 1000 * x0 + 100 * x1 + 10 * x2 + x3 <= 1000 * y0 + 100 * y1 + 10 * y2 + y3
  {
  }

  /** Adjacent elements in string order. */
  predicate Sorted(s: seq<string>) {
    forall i :: 0 < i < |s| ==> StrLe(s[i - 1], s[i])
  }

  /** An adjacent-sorted list is ascending between any two positions. */
  lemma {:induction false} SortedAscending(s: seq<string>)
    requires Sorted(s)
    ensures forall i, j :: 0 <= i <= j < |s| ==> StrLe(s[i], s[j])
  {
    forall i, j | 0 <= i <= j < |s| ensures StrLe(s[i], s[j]) {
      SortedPair(s, i, j);
    }
  }

  lemma {:induction false} SortedPair(s: seq<string>, i: nat, j: nat)
    requires Sorted(s) && i <= j < |s|
    ensures StrLe(s[i], s[j])
    decreases j - i
  {
    if i == j {
      StrLeReflexive(s[i]);
    } else {
      SortedPair(s, i, j - 1);
      StrLeTransitive(s[i], s[j - 1], s[j]);
    }
  }

  lemma {:induction false} StrLeReflexive(a: string)
    ensures StrLe(a, a)
    decreases |a|
  {
    if a != [] {
      StrLeReflexive(a[1..]);
    }
  }

  /** The list comprehension: the sheet names that are date keys, in
      workbook order. */
  function DateSheets(names: seq<string>): (r: seq<string>)
    ensures forall x :: x in r <==> x in names && IsDateKey(x)
    ensures forall i :: 0 <= i < |r| ==> IsDateKey(r[i])
  {
    if names == [] then []
    else
      var last := names[|names| - 1];
      assert names == names[..|names| - 1] + [last];
      DateSheets(names[..|names| - 1]) + (if IsDateKey(last) then [last] else [])
  }

  /** Inserts `x` before the first element it does not exceed. */
  function Insert(x: string, s: seq<string>): (r: seq<string>)
    requires Sorted(s)
    ensures Sorted(r)
    ensures multiset(r) == multiset(s) + multiset{x}
    ensures |r| == |s| + 1 && (r[0] == x || (s != [] && r[0] == s[0]))
  {
    if s == [] || StrLe(x, s[0]) then [x] + s
    else
      var rest := Insert(x, s[1..]);
      InsertStep(x, s, rest);
      [s[0]] + rest
  }

  /** Putting back the first element in front of `x` inserted into the
      rest keeps the list sorted and adds exactly `x`. */
  lemma InsertStep(x: string, s: seq<string>, rest: seq<string>)
    requires Sorted(s) && s != [] && !StrLe(x, s[0])
    requires Sorted(rest) && multiset(rest) == multiset(s[1..]) + multiset{x}
    requires |rest| == |s| && (rest[0] == x || (s[1..] != [] && rest[0] == s[1..][0]))
    ensures Sorted([s[0]] + rest)
    ensures multiset([s[0]] + rest) == multiset(s) + multiset{x}
  {
    StrLeTotal(x, s[0]);
    assert s == [s[0]] + s[1..];
    assert StrLe(s[0], rest[0]) by {
      if rest[0] != x {
        assert rest[0] == s[1];
      }
    }
    var r := [s[0]] + rest;
    forall i | 0 < i < |r|
      ensures StrLe(r[i - 1], r[i])
    {
      if i > 1 {
        assert r[i - 1] == rest[i - 2] && r[i] == rest[i - 1];
      }
    }
  }

  /** `list.sort()` on strings (the library sort; any sorting algorithm
      gives the same list for a total order on distinct names and equal
      strings are indistinguishable). */
  function SortStrings(s: seq<string>): (r: seq<string>)
    ensures Sorted(r) && multiset(r) == multiset(s)
  {
    if s == [] then []
    else
      assert s == s[..|s| - 1] + [s[|s| - 1]];
      Insert(s[|s| - 1], SortStrings(s[..|s| - 1]))
  }

  /** `get_available_dates`: the date-key sheet names, sorted ascending. */
  method GetAvailableDates(sheetNames: seq<string>) returns (dates: seq<string>)
    ensures Sorted(dates)
    ensures multiset(dates) == multiset(DateSheets(sheetNames))
    ensures forall x :: x in dates <==> x in sheetNames && IsDateKey(x)
    ensures forall i :: 0 <= i < |dates| ==> IsDateKey(dates[i])
    ensures forall i, j :: 0 <= i < j < |dates| ==> DigitsValue(dates[i]) <= DigitsValue(dates[j])
  {
    var keys := DateSheets(sheetNames);
    dates := SortStrings(keys);
    SameElements(dates, keys);
    forall i | 0 <= i < |dates| ensures IsDateKey(dates[i]) {
      assert dates[i] in keys;
    }
    SortedAscending(dates);
    forall i, j | 0 <= i < j < |dates| ensures DigitsValue(dates[i]) <= DigitsValue(dates[j]) {
      DateKeyOrder(dates[i], dates[j]);
    }
  }

  lemma SameElements(a: seq<string>, b: seq<string>)
    requires multiset(a) == multiset(b)
    ensures forall x :: x in a <==> x in b
  {
    forall x ensures x in a <==> x in b {
      assert x in a <==> x in multiset(a);
      assert x in b <==> x in multiset(b);
    }
  }

  const FilenameYear: string := "2026"
  const FilenameLabel: string := "屏二分隊勤務分配表"

  /** Python's `s[:n]` and `s[n:]`, which never fail on short strings. */
  function PrefixUpTo(s: string, n: nat): string { s[..if n <= |s| then n else |s|] }
  function SuffixFrom(s: string, n: nat): string { s[if n <= |s| then n else |s|..] }

  /** The suggested download name, `f"[2026{month}{day}] 屏二分隊勤務分配表.xlsx"`
      with `month, day = date_sheet[:2], date_sheet[2:]`. */
  function SuggestedFilename(dateSheet: string): string {
    var month := PrefixUpTo(dateSheet, 2);
    var day := SuffixFrom(dateSheet, 2);
    "[" + FilenameYear + month + day + "] " + FilenameLabel + ".xlsx"
  }

  /** Month and day together are the whole key, whatever its length, so the
      name is the year, the key, and the fixed label. */
  lemma FilenameEmbedsKey(dateSheet: string)
    ensures SuggestedFilename(dateSheet) == "[" + FilenameYear + dateSheet + "] " + FilenameLabel + ".xlsx"
  {
    var k := if 2 <= |dateSheet| then 2 else |dateSheet|;
    assert dateSheet[..k] + dateSheet[k..] == dateSheet;
  }

  /** Different dates never get the same file name. */
  lemma FilenameInjective(a: string, b: string)
    requires SuggestedFilename(a) == SuggestedFilename(b)
    ensures a == b
  {
    FilenameEmbedsKey(a);
    FilenameEmbedsKey(b);
    var fa, fb := SuggestedFilename(a), SuggestedFilename(b);
    assert |a| == |b|;
    assert a == fa[5..5 + |a|];
    assert b == fb[5..5 + |b|];
  }

  /** For a date key the bracketed part is the eight-digit date
      year-month-day. */
  lemma FilenameDateToken(dateSheet: string)
    requires IsDateKey(dateSheet)
    ensures var f := SuggestedFilename(dateSheet);
      |f| > 10 && f[0] == '[' && f[9] == ']' && f[1..9] == FilenameYear + dateSheet
      && forall i :: 1 <= i < 9 ==> IsAsciiDigit(f[i])
  {
    FilenameEmbedsKey(dateSheet);
  }
}

=== FILE: extractor.dfy ===
/** `extract_duty_data` (processor.py:134-256) and the header lookup it
    relies on, `find_column_by_header` (processor.py:112-131), on one sheet
    of the duty roster seen as a grid of cells. */
module Extractor {
  import opened Options
  import opened Strings
  import opened Cells
  import opened IdFormat
  import opened TextRules

  /** A sheet as `pd.read_excel(..., header=None)` gives it: `width` columns
      and a list of rows. */
  datatype Sheet = Sheet(width: nat, rows: seq<seq<Cell>>)

  /** Every row has `width` cells, as in a data frame. */
  predicate WellFormed(sheet: Sheet) {
    forall r :: 0 <= r < |sheet.rows| ==> |sheet.rows[r]| == sheet.width
  }

  // ---------------------------------------------------------------------
  // Header lookup

  /** A header cell matches when it is present and, with line breaks and
      spaces removed, contains one of the keywords. */
  predicate HeaderHit(cell: Cell, keywords: seq<string>) {
    !cell.Empty? && AnyKeyword(HeaderText(cell), keywords)
  }

  /** `str(cell_value).replace('\n', '').replace(' ', '')`. */
  function HeaderText(cell: Cell): string {
    RemoveChars(CellStr(cell), {'\n', ' '})
  }

  /** `s` contains one of `keywords`, tried in order. */
  predicate AnyKeyword(s: string, keywords: seq<string>)
    decreases |keywords|
  {
    keywords != [] && (Contains(s, keywords[0]) || AnyKeyword(s, keywords[1..]))
  }

  /** `AnyKeyword` holds exactly when some keyword is contained in `s`. */
  lemma {:induction false} AnyKeywordSpec(s: string, keywords: seq<string>)
    ensures AnyKeyword(s, keywords) <==> exists k :: 0 <= k < |keywords| && Contains(s, keywords[k])
    decreases |keywords|
  {
    if keywords != [] {
      AnyKeywordSpec(s, keywords[1..]);
      if exists k :: 1 <= k < |keywords| && Contains(s, keywords[k]) {
        var k :| 1 <= k < |keywords| && Contains(s, keywords[k]);
        assert keywords[1..][k - 1] == keywords[k];
      }
    }
  }

  /** Which cells of a header row match. */
  function HeaderHits(row: seq<Cell>, keywords: seq<string>): (hits: seq<bool>)
    ensures |hits| == |row|
  {
    seq(|row|, j requires 0 <= j < |row| => HeaderHit(row[j], keywords))
  }

  /** The first `true` of `hits` at or after `c`. */
  function FirstTrueFrom(hits: seq<bool>, c: nat): Option<nat>
    decreases |hits| - c
  {
    if c >= |hits| then None
    else if hits[c] then Some(c)
    else FirstTrueFrom(hits, c + 1)
  }

  /** The column `find_column_by_header` returns for header row `headerRow`.
      Without that row the program raises unless the sheet has no columns;
      this function answers None there. */
  function HeaderColumn(sheet: Sheet, keywords: seq<string>, headerRow: nat): Option<nat> {
    if headerRow < |sheet.rows| then FirstTrueFrom(HeaderHits(sheet.rows[headerRow], keywords), 0) else None
  }

  /** The search from `c` finds nothing exactly when no mark from `c` on is
      set, and otherwise finds the first one. */
  lemma {:induction false} FirstTrueFromSpec(hits: seq<bool>, c: nat)
    ensures var r := FirstTrueFrom(hits, c);
      && (r.None? <==> forall j :: c <= j < |hits| ==> !hits[j])
      && (r.Some? ==> c <= r.value < |hits| && hits[r.value]
                      && forall j :: c <= j < r.value ==> !hits[j])
    decreases |hits| - c
  {
    if c < |hits| && !hits[c] {
      FirstTrueFromSpec(hits, c + 1);
    }
  }

  /** `find_column_by_header` returns no column exactly when no header cell
      matches, and otherwise the smallest matching column, inside the sheet. */
  lemma HeaderColumnSpec(sheet: Sheet, keywords: seq<string>, headerRow: nat)
    requires WellFormed(sheet) && headerRow < |sheet.rows|
    ensures var r := HeaderColumn(sheet, keywords, headerRow);
      var row := sheet.rows[headerRow];
      && (r.None? <==> forall c :: 0 <= c < sheet.width ==> !HeaderHit(row[c], keywords))
      && (r.Some? ==> r.value < sheet.width && HeaderHit(row[r.value], keywords)
                      && forall c :: 0 <= c < r.value ==> !HeaderHit(row[c], keywords))
  {
    var row := sheet.rows[headerRow];
    var hits := HeaderHits(row, keywords);
    FirstTrueFromSpec(hits, 0);
    assert forall c :: 0 <= c < |row| ==> hits[c] == HeaderHit(row[c], keywords);
  }

  /** `find_column_by_header(df, keywords, header_row)`: scans the header
      row left to right and returns at the first cell that contains a
      keyword. The header row must exist unless the sheet has no columns
      (otherwise `extract_duty_data` raises an index error). */
  method FindColumnByHeader(sheet: Sheet, keywords: seq<string>, headerRow: nat) returns (col: Option<nat>)
    requires WellFormed(sheet)
    requires headerRow < |sheet.rows| || sheet.width == 0
    ensures col == HeaderColumn(sheet, keywords, headerRow)
  {
    if headerRow >= |sheet.rows| {
      return None;
    }
    var row := sheet.rows[headerRow];
    ghost var hits := HeaderHits(row, keywords);
    var c := 0;
    while c < sheet.width
      invariant 0 <= c <= sheet.width
      invariant FirstTrueFrom(hits, c) == FirstTrueFrom(hits, 0)
    {
      var cell := row[c];
      if !cell.Empty? {
        var cellStr := RemoveChars(CellStr(cell), {'\n', ' '});
        var k := 0;
        while k < |keywords|
          invariant 0 <= k <= |keywords|
          invariant AnyKeyword(cellStr, keywords[k..]) == AnyKeyword(cellStr, keywords)
        {
          assert keywords[k..][1..] == keywords[k + 1..];
          if Contains(cellStr, keywords[k]) {
            assert hits[c];
            return Some(c);
          }
          k := k + 1;
        }
        assert !hits[c];
      }
      c := c + 1;
    }
    return None;
  }

  // ---------------------------------------------------------------------
  // Extraction

  const HeaderRow: nat := 2
  const DutyKeywords: seq<string> := ["值班"]
  const RescueKeywords: seq<string> := ["第一救護", "救護"]
  const StandbyKeywords: seq<string> := ["備勤"]
  const RestKeywords: seq<string> := ["休息"]

  /** Rows 4 to 27 hold the 24 hourly slots, 08~09 to 07~08. */
  const FirstSlotRow: nat := 4
  const SlotCount: nat := 24
  const OffRow: nat := 28
  const RemarksRow: nat := 30
  const DispatchRow: nat := 42
  const FirstVehicleRow: nat := 35
  const VehicleRowEnd: nat := 38

  /** The boilerplate appended to every remarks cell. */
  const FixedNote: string := "(號轄區消防查察、水源調查)及轄區搶救困難狹小巷道防火、防災、山難，獨居老人、防震、一氧化碳居家訪視、防颱宣導、學生寄宿舍、住宅火警警報器設備設置家戶宣導及AED及CPR教學、住宅老舊電線抽換電氣防範火災防火宣導、廟宇爆竹煙火使用有認可安全標示宣導及液化石油氣灌(分)裝場所、販賣場所取締逾期鋼瓶、超量儲存，及查稽可疑廢棄工寮及工廠、地下爆竹非法、製造、儲存場所取締及防溺宣導勤務"

  /** The columns of the four duties, as found in the header row. */
  datatype Columns = Columns(duty: Option<nat>, rescue: Option<nat>, standby: Option<nat>, rest: Option<nat>)

  datatype TimeSlot = TimeSlot(time: Cell, duty: string, rescue: string, standby: string, rest: string)

  datatype DutyRecord = DutyRecord(
    timeSlots: seq<TimeSlot>,
    rotationOff: string,
    compensatoryOff: string,
    remarks: string,
    dispatch: string,
    vehicleMaintenance: string,
    fixedNote: string)

  /** A sheet `extract_duty_data` reads without an index error: rows up to
      42 and columns up to 3 exist. */
  predicate Readable(sheet: Sheet) {
    WellFormed(sheet) && |sheet.rows| > DispatchRow && sheet.width > 3
  }

  predicate ColumnsInSheet(sheet: Sheet, cols: Columns) {
    && (cols.duty.Some? ==> cols.duty.value < sheet.width)
    && (cols.rescue.Some? ==> cols.rescue.value < sheet.width)
    && (cols.standby.Some? ==> cols.standby.value < sheet.width)
    && (cols.rest.Some? ==> cols.rest.value < sheet.width)
  }

  function SheetColumns(sheet: Sheet): Columns {
    Columns(
      HeaderColumn(sheet, DutyKeywords, HeaderRow),
      HeaderColumn(sheet, RescueKeywords, HeaderRow),
      HeaderColumn(sheet, StandbyKeywords, HeaderRow),
      HeaderColumn(sheet, RestKeywords, HeaderRow))
  }

  /** The header lookups keep inside the sheet. */
  lemma SheetColumnsInSheet(sheet: Sheet)
    requires Readable(sheet)
    ensures ColumnsInSheet(sheet, SheetColumns(sheet))
  {
    HeaderColumnSpec(sheet, DutyKeywords, HeaderRow);
    HeaderColumnSpec(sheet, RescueKeywords, HeaderRow);
    HeaderColumnSpec(sheet, StandbyKeywords, HeaderRow);
    HeaderColumnSpec(sheet, RestKeywords, HeaderRow);
  }

  /** The second rescue value: the cell right of the first rescue column, or
      nothing when that column is the last one. */
  function SecondRescue(sheet: Sheet, row: seq<Cell>, c: nat): Cell
    requires |row| == sheet.width
  {
    if c + 1 < sheet.width then row[c + 1] else Empty
  }

  /** The slot read from row `r`. */
  function SlotOf(sheet: Sheet, cols: Columns, r: nat): TimeSlot
    requires WellFormed(sheet) && r < |sheet.rows| && sheet.width > 0
    requires ColumnsInSheet(sheet, cols)
  {
    var row := sheet.rows[r];
    TimeSlot(
      if row[0].Empty? then Text("") else row[0],
      if cols.duty.Some? then FormatNumber(row[cols.duty.value]) else "",
      if cols.rescue.Some? then RescueString(row[cols.rescue.value], SecondRescue(sheet, row, cols.rescue.value)) else "",
      if cols.standby.Some? then DutyString(row[cols.standby.value]) else "",
      if cols.rest.Some? then DutyString(row[cols.rest.value]) else "")
  }

  /** `extract_duty_data`'s loop over rows 4 to 27. */
  method ExtractSlot(sheet: Sheet, cols: Columns, r: nat) returns (slot: TimeSlot)
    requires WellFormed(sheet) && r < |sheet.rows| && sheet.width > 0
    requires ColumnsInSheet(sheet, cols)
    ensures slot == SlotOf(sheet, cols, r)
  {
    var row := sheet.rows[r];
    var duty, rescue, standby, rest := "", "", "", "";
    if cols.duty.Some? {
      duty := FormatNumber(row[cols.duty.value]);
    }
    if cols.rescue.Some? {
      var c := cols.rescue.value;
      rescue := ParseRescueNumbers(row[c], if c + 1 < sheet.width then row[c + 1] else Empty);
    }
    if cols.standby.Some? {
      standby := ParseDutyString(row[cols.standby.value]);
    }
    if cols.rest.Some? {
      rest := ParseDutyString(row[cols.rest.value]);
    }
    var time := if row[0].Empty? then Text("") else row[0];
    slot := TimeSlot(time, duty, rescue, standby, rest);
  }

  /** Whether a vehicle row has a type, a number and a maintainer. */
  predicate VehicleComplete(row: seq<Cell>)
    requires |row| > 22
  {
    IsTruthy(row[19]) && IsTruthy(row[20]) && IsTruthy(row[22])
  }

  /** The line a complete vehicle row contributes. */
  function VehicleLineOf(row: seq<Cell>): string
    requires |row| > 22
  {
    VehicleLine(row[19], row[20], row[22])
  }

  /** The list `vehicle_maintenance_list` once rows 35 up to `e` are read. */
  function VehicleLinesUpTo(sheet: Sheet, e: nat): seq<string>
    requires WellFormed(sheet) && sheet.width > 22 && e <= |sheet.rows|
  {
    if e <= FirstVehicleRow then []
    else
      var row := sheet.rows[e - 1];
      VehicleLinesUpTo(sheet, e - 1) + (if VehicleComplete(row) then [VehicleLineOf(row)] else [])
  }

  /** The vehicle lines of a sheet; a sheet of 22 columns or fewer has none. */
  function VehicleLines(sheet: Sheet): seq<string>
    requires Readable(sheet)
  {
    if sheet.width > 22 then VehicleLinesUpTo(sheet, VehicleRowEnd) else []
  }

  /** `extract_duty_data`'s result for a sheet it can read. */
  function DutyRecordOf(sheet: Sheet): DutyRecord
    requires Readable(sheet)
  {
    SheetColumnsInSheet(sheet);
    var cols := SheetColumns(sheet);
    var offs := sheet.rows[OffRow];
    var remarksCell := sheet.rows[RemarksRow][0];
    var dispatchCell := sheet.rows[DispatchRow][2];
    DutyRecord(
      SlotsOf(sheet, cols),
      if offs[3].Empty? then "" else CellStr(offs[3]),
      if sheet.width > 9 && !offs[9].Empty? then CellStr(offs[9]) else "",
      if remarksCell.Empty? then "" else NormalizeRemarks(CellStr(remarksCell)),
      if dispatchCell.Empty? then "" else NormalizeDispatch(CellStr(dispatchCell)),
      Join("\n", VehicleLines(sheet)),
      FixedNote)
  }

  /** The time slots of rows 4 to 27, in row order. */
  function SlotsOf(sheet: Sheet, cols: Columns): seq<TimeSlot>
    requires Readable(sheet) && ColumnsInSheet(sheet, cols)
  {
    seq(SlotCount, k requires 0 <= k < SlotCount => SlotOf(sheet, cols, FirstSlotRow + k))
  }

  /** The 24 slots, read row by row. */
  method ExtractSlots(sheet: Sheet, cols: Columns) returns (slots: seq<TimeSlot>)
    requires Readable(sheet) && ColumnsInSheet(sheet, cols)
    ensures |slots| == SlotCount
    ensures forall k :: 0 <= k < SlotCount ==> slots[k] == SlotOf(sheet, cols, FirstSlotRow + k)
    ensures slots == SlotsOf(sheet, cols)
  {
    slots := [];
    for i := FirstSlotRow to FirstSlotRow + SlotCount
      invariant |slots| == i - FirstSlotRow
      invariant forall k :: 0 <= k < |slots| ==> slots[k] == SlotOf(sheet, cols, FirstSlotRow + k)
    {
      var slot := ExtractSlot(sheet, cols, i);
      slots := slots + [slot];
    }
  }

  /** The vehicle lines, read row by row. */
  method ExtractVehicleLines(sheet: Sheet) returns (lines: seq<string>)
    requires Readable(sheet)
    ensures lines == VehicleLines(sheet)
  {
    lines := [];
    for i := FirstVehicleRow to VehicleRowEnd
      invariant lines == if sheet.width > 22 then VehicleLinesUpTo(sheet, i) else []
    {
      if sheet.width > 22 {
        var row := sheet.rows[i];
        if VehicleComplete(row) {
          lines := lines + [VehicleLineOf(row)];
        }
      }
    }
  }

  /** `extract_duty_data(duty_file, date_sheet)` on the sheet already read. */
  method ExtractDutyData(sheet: Sheet) returns (data: DutyRecord)
    requires Readable(sheet)
    ensures data == DutyRecordOf(sheet)
  {
    var colDuty := FindColumnByHeader(sheet, DutyKeywords, HeaderRow);
    var colRescue := FindColumnByHeader(sheet, RescueKeywords, HeaderRow);
    var colStandby := FindColumnByHeader(sheet, StandbyKeywords, HeaderRow);
    var colRest := FindColumnByHeader(sheet, RestKeywords, HeaderRow);
    var cols := Columns(colDuty, colRescue, colStandby, colRest);
    SheetColumnsInSheet(sheet);
    var slots := ExtractSlots(sheet, cols);

    var offs := sheet.rows[OffRow];
    var rotationOff, compensatoryOff := "", "";
    if !offs[3].Empty? {
      rotationOff := CellStr(offs[3]);
    }
    if sheet.width > 9 && !offs[9].Empty? {
      compensatoryOff := CellStr(offs[9]);
    }

    var remarks := "";
    var remarksCell := sheet.rows[RemarksRow][0];
    if !remarksCell.Empty? {
      remarks := NormalizeRemarks(CellStr(remarksCell));
    }

    var dispatch := "";
    var dispatchCell := sheet.rows[DispatchRow][2];
    if !dispatchCell.Empty? {
      dispatch := NormalizeDispatch(CellStr(dispatchCell));
    }

    assert slots == DutyRecordOf(sheet).timeSlots;
    var vehicleLines := ExtractVehicleLines(sheet);
    data := DutyRecord(slots, rotationOff, compensatoryOff, remarks, dispatch, Join("\n", vehicleLines), FixedNote);
  }

  // ---------------------------------------------------------------------
  // Properties of the extracted record

  /** Exactly 24 slots, from rows 4 to 27 in order; a duty whose header was
      not found is empty in every slot, and a found one is read from that
      column with the rule of its kind. */
  lemma DutyRecordSlots(sheet: Sheet, k: nat)
    requires Readable(sheet) && k < SlotCount
    ensures var d := DutyRecordOf(sheet);
      var cols := SheetColumns(sheet);
      var row := sheet.rows[FirstSlotRow + k];
      && |d.timeSlots| == 24
      && d.timeSlots[k].time == (if row[0].Empty? then Text("") else row[0])
      && (cols.duty.None? ==> d.timeSlots[k].duty == "")
      && (cols.rescue.None? ==> d.timeSlots[k].rescue == "")
      && (cols.standby.None? ==> d.timeSlots[k].standby == "")
      && (cols.rest.None? ==> d.timeSlots[k].rest == "")
      && (cols.duty.Some? ==> cols.duty.value < sheet.width && d.timeSlots[k].duty == FormatNumber(row[cols.duty.value]))
      && (cols.rescue.Some? ==> cols.rescue.value < sheet.width && d.timeSlots[k].rescue == RescueString(row[cols.rescue.value], SecondRescue(sheet, row, cols.rescue.value)))
      && (cols.standby.Some? ==> cols.standby.value < sheet.width && d.timeSlots[k].standby == DutyString(row[cols.standby.value]))
      && (cols.rest.Some? ==> cols.rest.value < sheet.width && d.timeSlots[k].rest == DutyString(row[cols.rest.value]))
  {
    SheetColumnsInSheet(sheet);
    var d := DutyRecordOf(sheet);
    assert d.timeSlots == SlotsOf(sheet, SheetColumns(sheet));
    assert d.timeSlots[k] == SlotOf(sheet, SheetColumns(sheet), FirstSlotRow + k);
  }

  /** The single-cell fields: a sheet of nine columns or fewer has no
      compensatory-leave entry, missing cells give empty fields, and the
      boilerplate note is always present. */
  lemma DutyRecordFields(sheet: Sheet)
    requires Readable(sheet)
    ensures var d := DutyRecordOf(sheet);
      && (sheet.width <= 9 ==> d.compensatoryOff == "")
      && (sheet.rows[OffRow][3].Empty? ==> d.rotationOff == "")
      && (sheet.rows[RemarksRow][0].Empty? ==> d.remarks == "")
      && (sheet.rows[DispatchRow][2].Empty? ==> d.dispatch == "")
      && d.fixedNote != ""
  {
  }

  /** The extracted remarks never hold a full-width colon, a `。※` pair or a
      trailing full stop. */
  lemma DutyRecordRemarksClean(sheet: Sheet)
    requires Readable(sheet)
    ensures var r := DutyRecordOf(sheet).remarks;
      && (forall i :: 0 <= i < |r| ==> r[i] != '：')
      && NoPeriodMarker(r)
      && (r == [] || r[|r| - 1] != '。')
  {
    var cell := sheet.rows[RemarksRow][0];
    if !cell.Empty? {
      NormalizeRemarksClean(CellStr(cell));
    }
  }

  /** `line` is the line of a complete row from 35 up to `e`. */
  predicate VehicleLineFrom(sheet: Sheet, line: string, e: nat)
    requires WellFormed(sheet) && sheet.width > 22 && e <= |sheet.rows|
  {
    exists r :: FirstVehicleRow <= r < e && VehicleComplete(sheet.rows[r]) && line == VehicleLineOf(sheet.rows[r])
  }

  /** Rows 35 up to `e` give at most one line each. */
  lemma {:induction false} VehicleLinesUpToLength(sheet: Sheet, e: nat)
    requires WellFormed(sheet) && sheet.width > 22 && FirstVehicleRow <= e <= |sheet.rows|
    ensures |VehicleLinesUpTo(sheet, e)| <= e - FirstVehicleRow
  {
    if e > FirstVehicleRow {
      VehicleLinesUpToLength(sheet, e - 1);
    }
  }

  /** Every line up to row `e` comes from a complete row before `e`. */
  lemma {:induction false} VehicleLinesUpToSound(sheet: Sheet, e: nat)
    requires WellFormed(sheet) && sheet.width > 22 && e <= |sheet.rows|
    ensures forall i :: 0 <= i < |VehicleLinesUpTo(sheet, e)| ==> VehicleLineFrom(sheet, VehicleLinesUpTo(sheet, e)[i], e)
  {
    if e > FirstVehicleRow {
      VehicleLinesUpToSound(sheet, e - 1);
      var lines := VehicleLinesUpTo(sheet, e);
      var prev := VehicleLinesUpTo(sheet, e - 1);
      forall i | 0 <= i < |lines|
        ensures VehicleLineFrom(sheet, lines[i], e)
      {
        if i < |prev| {
          assert lines[i] == prev[i];
          assert VehicleLineFrom(sheet, prev[i], e - 1);
        } else {
          assert VehicleComplete(sheet.rows[e - 1]) && lines[i] == VehicleLineOf(sheet.rows[e - 1]);
        }
      }
    }
  }

  /** Every complete row before `e` gives a line. */
  lemma {:induction false} VehicleLinesUpToComplete(sheet: Sheet, e: nat)
    requires WellFormed(sheet) && sheet.width > 22 && e <= |sheet.rows|
    ensures forall r :: FirstVehicleRow <= r < e && VehicleComplete(sheet.rows[r]) ==> VehicleLineOf(sheet.rows[r]) in VehicleLinesUpTo(sheet, e)
  {
    if e > FirstVehicleRow {
      VehicleLinesUpToComplete(sheet, e - 1);
      var row := sheet.rows[e - 1];
      var prev := VehicleLinesUpTo(sheet, e - 1);
      assert VehicleLinesUpTo(sheet, e) == prev + (if VehicleComplete(row) then [VehicleLineOf(row)] else []);
    }
  }

  /** At most three vehicle lines, each from one of rows 35 to 37 that has
      a type, a number and a maintainer, and one for every such row; none
      when the sheet has 22 columns or fewer. */
  lemma VehicleLinesSpec(sheet: Sheet)
    requires Readable(sheet)
    ensures var lines := VehicleLines(sheet);
      && |lines| <= 3
      && (sheet.width <= 22 ==> lines == [])
      && (sheet.width > 22 ==> forall i :: 0 <= i < |lines| ==> VehicleLineFrom(sheet, lines[i], VehicleRowEnd))
      && (sheet.width > 22 ==> forall r :: FirstVehicleRow <= r < VehicleRowEnd && VehicleComplete(sheet.rows[r]) ==> VehicleLineOf(sheet.rows[r]) in lines)
  {
    if sheet.width > 22 {
      VehicleLinesUpToLength(sheet, VehicleRowEnd);
      VehicleLinesUpToSound(sheet, VehicleRowEnd);
      VehicleLinesUpToComplete(sheet, VehicleRowEnd);
    }
  }

  /** The vehicle lines follow row order: row 35's line (if any), then row
      36's, then row 37's. */
  lemma VehicleLinesInRowOrder(sheet: Sheet)
    requires Readable(sheet) && sheet.width > 22
    ensures VehicleLines(sheet)
         == (if VehicleComplete(sheet.rows[35]) then [VehicleLineOf(sheet.rows[35])] else [])
          + (if VehicleComplete(sheet.rows[36]) then [VehicleLineOf(sheet.rows[36])] else [])
          + (if VehicleComplete(sheet.rows[37]) then [VehicleLineOf(sheet.rows[37])] else [])
  {
    assert VehicleLinesUpTo(sheet, 35) == [];
    assert VehicleLinesUpTo(sheet, 36) == [] + (if VehicleComplete(sheet.rows[35]) then [VehicleLineOf(sheet.rows[35])] else []);
    assert VehicleLinesUpTo(sheet, 37) == VehicleLinesUpTo(sheet, 36) + (if VehicleComplete(sheet.rows[36]) then [VehicleLineOf(sheet.rows[36])] else []);
    assert VehicleLinesUpTo(sheet, 38) == VehicleLinesUpTo(sheet, 37) + (if VehicleComplete(sheet.rows[37]) then [VehicleLineOf(sheet.rows[37])] else []);
  }
}

=== FILE: filler.dfy ===
/** `fill_distribution_table` (processor.py:259-331): the extracted record is
    written into fixed cells of the template's active worksheet, in place. */
module Filler {
  import opened Strings
  import opened Cells
  import opened Extractor

  /** A cell position as openpyxl numbers it: (row, column), both from 1. */
  type Position = (int, int)

  /** Template rows of the four duties; slot `i` goes to column `i + 5`. */
  const DutyRow: int := 4
  const RescueRow: int := 5
  const StandbyRow: int := 11
  const RestRow: int := 12
  const FirstSlotColumn: int := 5
  /** The dispatch cell and the notes cell. */
  const DispatchCell: Position := (17, 5)
  const NotesCell: Position := (18, 5)

  /** The spaces kept after the vehicle block in the notes cell. */
  const VehiclePadding: string := "                      "

  /** `if value: ws.cell(row, column, value)`: an empty value writes nothing. */
  function WriteIfSet(m: map<Position, Cell>, p: Position, value: string): map<Position, Cell> {
    if value != "" then m[p := Text(value)] else m
  }

  /** The effect of a write of `value` at `p` that turned `before` into
      `after`, seen from that cell: a non-empty value is stored there, an
      empty one leaves the cell as it was (present or not). */
  predicate WroteAt(after: map<Position, Cell>, before: map<Position, Cell>, p: Position, value: string) {
    && (value != "" ==> p in after && after[p] == Text(value))
    && (value == "" ==> (p in after <==> p in before) && (p in before ==> after[p] == before[p]))
  }

  /** A cell neither present nor changed. */
  predicate SameAt(after: map<Position, Cell>, before: map<Position, Cell>, p: Position) {
    (p in after <==> p in before) && (p in before ==> after[p] == before[p])
  }

  /** The four writes of slot `i`. */
  function WriteSlot(m: map<Position, Cell>, i: int, slot: TimeSlot): map<Position, Cell> {
    var col := i + FirstSlotColumn;
    var m1 := WriteIfSet(m, (DutyRow, col), slot.duty);
    var m2 := WriteIfSet(m1, (RescueRow, col), slot.rescue);
    var m3 := WriteIfSet(m2, (StandbyRow, col), slot.standby);
    WriteIfSet(m3, (RestRow, col), slot.rest)
  }

  /** The worksheet after the loop has written `slots[0..|slots|)`. */
  function WriteSlots(m: map<Position, Cell>, slots: seq<TimeSlot>): map<Position, Cell> {
    if slots == [] then m
    else WriteSlot(WriteSlots(m, slots[..|slots| - 1]), |slots| - 1, slots[|slots| - 1])
  }

  /** `remarks_parts`: the remarks, the vehicle block with its padding and
      the fixed note, each only when non-empty, in that order. */
  function NotesParts(data: DutyRecord): seq<string> {
    (if data.remarks != "" then [data.remarks] else [])
    + (if data.vehicleMaintenance != "" then [data.vehicleMaintenance + VehiclePadding] else [])
    + (if data.fixedNote != "" then [data.fixedNote] else [])
  }

  /** `remarks_text`. */
  function NotesText(data: DutyRecord): string {
    Join("\n", NotesParts(data))
  }

  /** The worksheet after `fill_distribution_table`. */
  function Filled(m: map<Position, Cell>, data: DutyRecord): map<Position, Cell> {
    var slotsWritten := WriteSlots(m, data.timeSlots);
    var dispatchWritten := WriteIfSet(slotsWritten, DispatchCell, data.dispatch);
    WriteIfSet(dispatchWritten, NotesCell, NotesText(data))
  }

  /** The cells `fill_distribution_table` may write for `n` slots. */
  predicate IsTarget(p: Position, n: int) {
    IsSlotTarget(p, n) || p == DispatchCell || p == NotesCell
  }

  /** The cells the slot loop may write for `n` slots. */
  predicate IsSlotTarget(p: Position, n: int) {
    (p.0 == DutyRow || p.0 == RescueRow || p.0 == StandbyRow || p.0 == RestRow)
    && FirstSlotColumn <= p.1 < FirstSlotColumn + n
  }

  /** The field of `slot` that goes to template row `row`. */
  function SlotField(slot: TimeSlot, row: int): string {
    if row == DutyRow then slot.duty
    else if row == RescueRow then slot.rescue
    else if row == StandbyRow then slot.standby
    else if row == RestRow then slot.rest
    else ""
  }

  /** The active worksheet of the template, as a map from positions to the
      values they hold. */
  class Worksheet {
    var cells: map<Position, Cell>

    constructor(initial: map<Position, Cell>)
      ensures cells == initial
    {
      cells := initial;
    }

    /** The body of the slot loop: the four `if value: ws.cell(...)`
        writes of slot `i` into column `i + 5`. */
    method WriteSlotCells(i: int, slot: TimeSlot)
      modifies this
      ensures cells == WriteSlot(old(cells), i, slot)
    {
      var col := i + FirstSlotColumn;
      if slot.duty != "" {
        cells := cells[(DutyRow, col) := Text(slot.duty)];
      }
      if slot.rescue != "" {
        cells := cells[(RescueRow, col) := Text(slot.rescue)];
      }
      if slot.standby != "" {
        cells := cells[(StandbyRow, col) := Text(slot.standby)];
      }
      if slot.rest != "" {
        cells := cells[(RestRow, col) := Text(slot.rest)];
      }
    }

    /** `fill_distribution_table(template_file, duty_data, date_str)` on
        the loaded worksheet. */
    method FillDistributionTable(data: DutyRecord)
      modifies this
      ensures cells == Filled(old(cells), data)
    {
      var slots := data.timeSlots;
      for i := 0 to |slots|
        invariant cells == WriteSlots(old(cells), slots[..i])
      {
        assert slots[..i + 1][..i] == slots[..i];
        WriteSlotCells(i, slots[i]);
      }
      assert slots[..|slots|] == slots;
      ghost var slotsWritten := cells;

      if data.dispatch != "" {
        cells := cells[DispatchCell := Text(data.dispatch)];
      }
      assert cells == WriteIfSet(slotsWritten, DispatchCell, data.dispatch);

      var parts: seq<string> := [];
      if data.remarks != "" {
        parts := parts + [data.remarks];
      }
      if data.vehicleMaintenance != "" {
        parts := parts + [data.vehicleMaintenance + VehiclePadding];
      }
      if data.fixedNote != "" {
        parts := parts + [data.fixedNote];
      }
      assert parts == NotesParts(data);
      var notesText := Join("\n", parts);
      assert notesText == NotesText(data);
      ghost var dispatchWritten := cells;
      if notesText != "" {
        cells := cells[NotesCell := Text(notesText)];
      }
      assert cells == WriteIfSet(dispatchWritten, NotesCell, notesText);
    }
  }

  // ---------------------------------------------------------------------
  // Properties of the fill

  /** The slot loop leaves every cell outside its rows and columns alone. */
  lemma {:induction false} WriteSlotsFrame(m: map<Position, Cell>, slots: seq<TimeSlot>, p: Position)
    requires !IsSlotTarget(p, |slots|)
    ensures SameAt(WriteSlots(m, slots), m, p)
  {
    if slots != [] {
      WriteSlotsFrame(m, slots[..|slots| - 1], p);
    }
  }

  /** Nothing outside the slot cells, the dispatch cell and the notes cell
      changes: no cell is added, removed or rewritten. */
  lemma FilledFrame(m: map<Position, Cell>, data: DutyRecord, p: Position)
    requires !IsTarget(p, |data.timeSlots|)
    ensures SameAt(Filled(m, data), m, p)
  {
    WriteSlotsFrame(m, data.timeSlots, p);
  }

  /** One slot's writes leave the other columns alone. */
  lemma WriteSlotOther(m: map<Position, Cell>, j: int, slot: TimeSlot, p: Position)
    requires p.1 != j + FirstSlotColumn
    ensures SameAt(WriteSlot(m, j, slot), m, p)
  {
  }

  /** One slot's writes put each of its non-empty fields in its row. */
  lemma WriteSlotOwn(m: map<Position, Cell>, j: int, slot: TimeSlot, row: int)
    requires row == DutyRow || row == RescueRow || row == StandbyRow || row == RestRow
    ensures WroteAt(WriteSlot(m, j, slot), m, (row, j + FirstSlotColumn), SlotField(slot, row))
  {
  }

  /** The cell of slot `i` in one of the four duty rows gets that slot's
      field when it is non-empty and is left alone otherwise. */
  lemma {:induction false} WriteSlotsCell(m: map<Position, Cell>, slots: seq<TimeSlot>, i: int, row: int)
    requires 0 <= i < |slots|
    requires row == DutyRow || row == RescueRow || row == StandbyRow || row == RestRow
    ensures WroteAt(WriteSlots(m, slots), m, (row, i + FirstSlotColumn), SlotField(slots[i], row))
  {
    var n := |slots| - 1;
    var prefix := slots[..n];
    var p := (row, i + FirstSlotColumn);
    var before := WriteSlots(m, prefix);
    assert WriteSlots(m, slots) == WriteSlot(before, n, slots[n]);
    if i < n {
      WriteSlotsCell(m, prefix, i, row);
      assert prefix[i] == slots[i];
      WriteSlotOther(before, n, slots[n], p);
    } else {
      WriteSlotsFrame(m, prefix, p);
      WriteSlotOwn(before, n, slots[n], row);
    }
  }

  /** Slot `i`'s duty, rescue, standby and rest values land in rows 4, 5,
      11 and 12 of column `i + 5`; an empty value leaves its cell alone. */
  lemma FilledSlotCell(m: map<Position, Cell>, data: DutyRecord, i: int, row: int)
    requires 0 <= i < |data.timeSlots|
    requires row == DutyRow || row == RescueRow || row == StandbyRow || row == RestRow
    ensures WroteAt(Filled(m, data), m, (row, i + FirstSlotColumn), SlotField(data.timeSlots[i], row))
  {
    var p := (row, i + FirstSlotColumn);
    var slotsWritten := WriteSlots(m, data.timeSlots);
    var dispatchWritten := WriteIfSet(slotsWritten, DispatchCell, data.dispatch);
    WriteSlotsCell(m, data.timeSlots, i, row);
    assert SameAt(dispatchWritten, slotsWritten, p);
    assert SameAt(Filled(m, data), dispatchWritten, p);
  }

  /** The dispatch text lands in (17, 5) when non-empty. */
  lemma FilledDispatch(m: map<Position, Cell>, data: DutyRecord)
    ensures WroteAt(Filled(m, data), WriteSlots(m, data.timeSlots), DispatchCell, data.dispatch)
    ensures data.dispatch == "" ==> SameAt(Filled(m, data), m, DispatchCell)
  {
    WriteSlotsFrame(m, data.timeSlots, DispatchCell);
  }

  /** The notes text: the remarks, a line break, the padded vehicle block,
      a line break, the fixed note, where each present part is followed by
      a line break only when a later part is present. With a fixed note
      the text ends with it. */
  lemma NotesTextShape(data: DutyRecord)
    requires data.fixedNote != ""
    ensures NotesText(data)
         == (if data.remarks != "" then data.remarks + "\n" else "")
          + (if data.vehicleMaintenance != "" then data.vehicleMaintenance + VehiclePadding + "\n" else "")
          + data.fixedNote
  {
    var r, v, f := data.remarks, data.vehicleMaintenance + VehiclePadding, data.fixedNote;
    var parts := NotesParts(data);
    if data.remarks != "" && data.vehicleMaintenance != "" {
      assert parts == [r, v, f];
      assert parts[1..] == [v, f];
      JoinSmall("\n", v, f);
      assert NotesText(data) == r + "\n" + (v + "\n" + f);
    } else if data.remarks != "" {
      assert parts == [r, f];
      JoinSmall("\n", r, f);
    } else if data.vehicleMaintenance != "" {
      assert parts == [v, f];
      JoinSmall("\n", v, f);
    } else {
      assert parts == [f];
    }
  }

  /** With a fixed note, the notes cell (18, 5) is always written, and it
      holds the notes text. */
  lemma FilledNotes(m: map<Position, Cell>, data: DutyRecord)
    requires data.fixedNote != ""
    ensures NotesCell in Filled(m, data) && Filled(m, data)[NotesCell] == Text(NotesText(data))
  {
    NotesTextShape(data);
    assert |NotesText(data)| >= |data.fixedNote|;
  }

  /** For a record extracted from a sheet the fixed note is present, so the
      notes cell is written whatever the sheet holds. */
  lemma FilledNotesFromSheet(m: map<Position, Cell>, sheet: Sheet)
    requires Readable(sheet)
    ensures var data := DutyRecordOf(sheet);
      NotesCell in Filled(m, data) && Filled(m, data)[NotesCell] == Text(NotesText(data))
  {
    DutyRecordFields(sheet);
    FilledNotes(m, DutyRecordOf(sheet));
  }
}

=== FILE: idformat.dfy ===
/** Personnel-ID formatting: `format_number`, `parse_duty_string`,
    `parse_rescue_numbers` and the token rule they share with the dispatch
    rewrite (processor.py:32-109, 217-230). */
module IdFormat {
  import opened Options
  import opened Strings
  import opened Cells

  /** A character of the regular-expression class `[.\s]`. */
  predicate IsSeparator(c: char) { c == '.' || IsSpace(c) }

  predicate NoSeparator(s: string) {
    forall i :: 0 <= i < |s| ==> !IsSeparator(s[i])
  }

  /** Index of the first separator in `s`, or `|s|` when there is none. */
  function FirstSeparator(s: string): (k: nat)
    ensures k <= |s|
    ensures k < |s| ==> IsSeparator(s[k])
    ensures forall i :: 0 <= i < k ==> !IsSeparator(s[i])
  {
    if s == [] || IsSeparator(s[0]) then 0 else 1 + FirstSeparator(s[1..])
  }

  /** End of the run of separators that starts at `k`. */
  function SeparatorRunEnd(s: string, k: nat): (e: nat)
    requires k <= |s|
    ensures k <= e <= |s|
    ensures forall i :: k <= i < e ==> IsSeparator(s[i])
    ensures e == |s| || !IsSeparator(s[e])
    decreases |s| - k
  {
    if k < |s| && IsSeparator(s[k]) then SeparatorRunEnd(s, k + 1) else k
  }

  /** The characters of `s` that are not separators, in order. */
  function DropSeparators(s: string): string {
    if s == [] then []
    else (if IsSeparator(s[0]) then [] else [s[0]]) + DropSeparators(s[1..])
  }

  /** The pieces of a list, concatenated. */
  function Concat(xs: seq<string>): string {
    if xs == [] then "" else xs[0] + Concat(xs[1..])
  }

  lemma {:induction false} DropSeparatorsAppend(a: string, b: string)
    ensures DropSeparators(a + b) == DropSeparators(a) + DropSeparators(b)
    decreases |a|
  {
    if a != [] {
      assert (a + b)[1..] == a[1..] + b;
      DropSeparatorsAppend(a[1..], b);
    } else {
      assert a + b == b;
    }
  }

  lemma {:induction false} DropSeparatorsOfToken(t: string)
    requires NoSeparator(t)
    ensures DropSeparators(t) == t
    decreases |t|
  {
    if t != [] {
      DropSeparatorsOfToken(t[1..]);
      assert t == [t[0]] + t[1..];
    }
  }

  lemma {:induction false} DropSeparatorsOfRun(r: string)
    requires forall i :: 0 <= i < |r| ==> IsSeparator(r[i])
    ensures DropSeparators(r) == []
    decreases |r|
  {
    if r != [] {
      DropSeparatorsOfRun(r[1..]);
    }
  }

  /** Dropping separators from a token, a run and the rest keeps the token
      and drops the run. */
  lemma DropTokenRun(t: string, r: string, u: string)
    requires DropSeparators(t) == t && DropSeparators(r) == []
    ensures DropSeparators(t + r + u) == t + DropSeparators(u)
  {
    DropSeparatorsAppend(t, r);
    assert DropSeparators(t + r) == t;
    DropSeparatorsAppend(t + r, u);
  }

  /** A string cut at `k` and `e` is the three pieces again. */
  lemma CutThree(s: string, k: nat, e: nat)
    requires k <= e <= |s|
    ensures s == s[..k] + s[k..e] + s[e..]
  {
    assert s == s[..e] + s[e..];
    assert s[..e] == s[..k] + s[k..e];
  }

  lemma RunIsSeparators(s: string, k: nat, e: nat)
    requires k <= e <= |s|
    requires forall i :: k <= i < e ==> IsSeparator(s[i])
    ensures forall i :: 0 <= i < |s[k..e]| ==> IsSeparator(s[k..e][i])
  {
  }

  lemma DropSeparatorsAtRun(s: string, k: nat, e: nat)
    requires k <= e <= |s|
    requires forall i :: 0 <= i < k ==> !IsSeparator(s[i])
    requires forall i :: k <= i < e ==> IsSeparator(s[i])
    ensures DropSeparators(s) == s[..k] + DropSeparators(s[e..])
  {
    assert NoSeparator(s[..k]);
    DropSeparatorsOfToken(s[..k]);
    RunIsSeparators(s, k, e);
    DropSeparatorsOfRun(s[k..e]);
    DropTokenRun(s[..k], s[k..e], s[e..]);
    CutThree(s, k, e);
  }

  /** `Concat` of a list with a first piece. */
  lemma ConcatCons(a: string, xs: seq<string>)
    ensures Concat([a] + xs) == a + Concat(xs)
  {
    assert ([a] + xs)[1..] == xs;
  }

  /** `re.split(r'[.\s]+', s)`: the pieces between maximal runs of
      separators, with an empty piece before a leading run and after a
      trailing one. */
  function SplitSeparators(s: string): (parts: seq<string>)
    ensures |parts| >= 1
    ensures forall j :: 0 <= j < |parts| ==> NoSeparator(parts[j])
    decreases |s|
  {
    var k := FirstSeparator(s);
    if k == |s| then [s]
    else [s[..k]] + SplitSeparators(s[SeparatorRunEnd(s, k)..])
  }

  /** Concatenated, the pieces of `re.split` are the input without its
      separators. */
  lemma {:induction false} SplitSeparatorsConcat(s: string)
    ensures Concat(SplitSeparators(s)) == DropSeparators(s)
    decreases |s|
  {
    var k := FirstSeparator(s);
    if k == |s| {
      DropSeparatorsOfToken(s);
      ConcatCons(s, []);
    } else {
      var e := SeparatorRunEnd(s, k);
      SplitSeparatorsConcat(s[e..]);
      DropSeparatorsAtRun(s, k, e);
      ConcatCons(s[..k], SplitSeparators(s[e..]));
    }
  }

  /** One step of `re.split`: the text before the first run, then the
      pieces of what follows the run. */
  lemma SplitUnfold(s: string)
    requires FirstSeparator(s) < |s|
    ensures var k := FirstSeparator(s);
      SplitSeparators(s) == [s[..k]] + SplitSeparators(s[SeparatorRunEnd(s, k)..])
  {
  }

  /** The first piece is empty exactly when the input is empty or starts
      with a separator. */
  lemma SplitFirstPiece(s: string)
    ensures SplitSeparators(s)[0] == [] <==> s == [] || IsSeparator(s[0])
  {
  }

  /** The last piece is empty exactly when the input is empty or ends with
      a separator. */
  lemma {:induction false} SplitLastPiece(s: string)
    ensures var parts := SplitSeparators(s);
      parts[|parts| - 1] == [] <==> s == [] || IsSeparator(s[|s| - 1])
    decreases |s|
  {
    var k := FirstSeparator(s);
    if k < |s| {
      var e := SeparatorRunEnd(s, k);
      if e == |s| {
        SplitLastAtRun(s);
      } else {
        var u := s[e..];
        SplitLastPiece(u);
        SplitUnfold(s);
        LastOfCons(s[..k], SplitSeparators(u));
        assert s[|s| - 1] == u[|u| - 1];
      }
    }
  }

  /** A trailing run leaves an empty last piece. */
  lemma SplitLastAtRun(s: string)
    requires FirstSeparator(s) < |s|
    requires SeparatorRunEnd(s, FirstSeparator(s)) == |s|
    ensures var parts := SplitSeparators(s);
      parts[|parts| - 1] == [] && IsSeparator(s[|s| - 1])
  {
    var k := FirstSeparator(s);
    SplitUnfold(s);
    assert SplitSeparators(s[|s|..]) == [[]];
    assert k <= |s| - 1;
  }

  lemma LastOfCons(x: string, rest: seq<string>)
    requires |rest| >= 1
    ensures ([x] + rest)[|rest|] == rest[|rest| - 1]
  {
  }

  /** No piece between the first and the last is empty, because the runs
      are maximal. */
  lemma {:induction false} SplitInteriorPieces(s: string)
    ensures var parts := SplitSeparators(s);
      forall j :: 0 < j < |parts| - 1 ==> parts[j] != []
    decreases |s|
  {
    var k := FirstSeparator(s);
    if k < |s| {
      var e := SeparatorRunEnd(s, k);
      var u := s[e..];
      SplitInteriorPieces(u);
      SplitFirstPiece(u);
      SplitUnfold(s);
      assert u != [] ==> !IsSeparator(u[0]);
    }
  }

  /** The first piece is empty exactly when the input is empty or starts
      with a separator, the last exactly when it is empty or ends with one;
      no piece in between is empty, because the runs are maximal. */
  lemma SplitSeparatorsEdges(s: string)
    ensures var parts := SplitSeparators(s);
      && (parts[0] == [] <==> s == [] || IsSeparator(s[0]))
      && (parts[|parts| - 1] == [] <==> s == [] || IsSeparator(s[|s| - 1]))
      && (forall j :: 0 < j < |parts| - 1 ==> parts[j] != [])
  {
    SplitFirstPiece(s);
    SplitLastPiece(s);
    SplitInteriorPieces(s);
  }

  /** What `re.split` promises of its pieces: the concatenation and the
      empty pieces at the edges, as above. */
  lemma SplitSeparatorsSpec(s: string)
    ensures var parts := SplitSeparators(s);
      && Concat(parts) == DropSeparators(s)
      && (parts[0] == [] <==> s == [] || IsSeparator(s[0]))
      && (parts[|parts| - 1] == [] <==> s == [] || IsSeparator(s[|s| - 1]))
      && (forall j :: 0 < j < |parts| - 1 ==> parts[j] != [])
  {
    SplitSeparatorsConcat(s);
    SplitSeparatorsEdges(s);
  }

  /** One token of an ID list: `f"{int(float(p)):02d}"` when it is a number,
      the token itself when the conversion fails. */
  function FormatToken(t: string): (r: string)
    ensures DigitString(t) ==> DigitString(r) && DigitsValue(r) == DigitsValue(t)
    ensures DigitString(t) && DigitsValue(t) < 100 ==> |r| == 2
    ensures !DigitString(t) ==> r == t
  {
    if DigitString(t) then Pad2(DigitsValue(t)) else t
  }

  /** What the loop over the split pieces appends for one piece. */
  function FormatPart(p: string): seq<string> {
    var q := Strip(p);
    if q == "" then [] else [FormatToken(q)]
  }

  /** The list `formatted_parts` after the loop has seen all of `parts`. */
  function FormatParts(parts: seq<string>): seq<string> {
    if parts == [] then []
    else FormatParts(parts[..|parts| - 1]) + FormatPart(parts[|parts| - 1])
  }

  /** Split on runs of `.`/whitespace, format each token, join with ",". */
  function IdList(content: string): string {
    Join(",", FormatParts(SplitSeparators(content)))
  }

  /** `format_number(value)`. */
  function FormatNumber(value: Cell): (r: string)
    ensures value.Empty? ==> r == ""
    ensures value.Num? ==> DigitString(r) && DigitsValue(r) == value.n && |r| >= 2
    ensures value.Num? && value.n < 100 ==> |r| == 2
  {
    match value
    case Empty => ""
    case Num(n) => Pad2(n)
    case Text(s) => Strip(s)
  }

  /** Text that already looks like a number is not padded by `format_number`:
      only numeric cells are. */
  lemma FormatNumberTextNotPadded(s: string)
    requires DigitString(s)
    ensures FormatNumber(Text(s)) == s
  {
    StripNoSpace(s);
  }

  /** The value `parse_duty_string` returns. */
  function DutyString(value: Cell): string {
    if value.Empty? then ""
    else
      var valueStr := Strip(CellStr(value));
      if valueStr == "" then "" else IdList(valueStr)
  }

  /** The loop of `parse_duty_string` (and of the dispatch callback) over
      the split pieces: strip each piece, skip it when empty, otherwise append
      its formatted token. */
  method FormatPieces(parts: seq<string>) returns (formatted: seq<string>)
    ensures formatted == FormatParts(parts)
  {
    formatted := [];
    var i := 0;
    while i < |parts|
      invariant 0 <= i <= |parts|
      invariant formatted == FormatParts(parts[..i])
    {
      assert parts[..i + 1][..i] == parts[..i];
      var part := Strip(parts[i]);
      if part != "" {
        formatted := formatted + [FormatToken(part)];
      }
      i := i + 1;
    }
    assert parts[..|parts|] == parts;
  }

  /** `parse_duty_string(value)`. */
  method ParseDutyString(value: Cell) returns (r: string)
    ensures r == DutyString(value)
  {
    if value.Empty? {
      return "";
    }
    var valueStr := Strip(CellStr(value));
    if valueStr == "" {
      return "";
    }
    var parts := SplitSeparators(valueStr);
    var formatted := FormatPieces(parts);
    r := Join(",", formatted);
  }

  /** Digits only, possibly none. */
  predicate AllDigits(s: string) {
    forall i :: 0 <= i < |s| ==> IsAsciiDigit(s[i])
  }


  /** Text that `float` reads as a plain decimal: digits, optionally a point
      and more digits, with at least one digit in all (`8`, `8.5`, `8.`,
      `.5`). */
  predicate PlainDecimal(v: string) {
    var k := IndexOf(v, '.');
    && AllDigits(v[..k])
    && (k < |v| ==> AllDigits(v[k + 1..]))
    && (if k < |v| then |v| >= 2 else |v| >= 1)
  }

  /** `int(float(val))` for a value that is present: a numeric cell, or text
      that is a plain decimal once surrounding whitespace is dropped, whose
      fraction `int` truncates away. */
  function NumericValue(c: Cell): (r: Option<nat>)
    ensures c.Empty? ==> r.None?
    ensures c.Num? ==> r == Some(c.n)
    ensures c.Text? && DigitString(Strip(c.s)) ==> r == Some(DigitsValue(Strip(c.s)))
  {
    match c
    case Empty => None
    case Num(n) => Some(n)
    case Text(s) =>
      var v := Strip(s);
      var k := IndexOf(v, '.');
      assert DigitString(v) ==> k == |v| && v[..k] == v;
      if PlainDecimal(v) then Some(DigitsValue(v[..k])) else None
  }

  /** A decimal with a fraction converts to its whole part: `int` drops the
      fraction that `float` read. */
  lemma DecimalTruncates(whole: string, fraction: string)
    requires AllDigits(whole) && AllDigits(fraction) && |whole| + |fraction| >= 1
    ensures NumericValue(Text(whole + "." + fraction)) == Some(DigitsValue(whole))
  {
    var v := whole + "." + fraction;
    DecimalPieces(whole, fraction);
    StripNoSpace(v);
    assert PlainDecimal(v);
  }

  /** The pieces of `whole.fraction` as the conversion sees them. */
  lemma DecimalPieces(whole: string, fraction: string)
    requires AllDigits(whole) && AllDigits(fraction)
    ensures var v := whole + "." + fraction;
      && (forall i :: 0 <= i < |v| ==> !IsSpace(v[i]))
      && IndexOf(v, '.') == |whole| && v[..|whole|] == whole && v[|whole| + 1..] == fraction
  {
    var v := whole + "." + fraction;
    forall i | 0 <= i < |v| ensures !IsSpace(v[i]) {
      assert v[i] == '.' || IsAsciiDigit(v[i]);
    }
    assert v[|whole|] == '.';
    assert forall i :: 0 <= i < |whole| ==> v[i] == whole[i];
    assert v[..|whole|] == whole && v[|whole| + 1..] == fraction;
  }

  /** Text without digits and without whitespace does not convert. */
  lemma WordDoesNotConvert(s: string)
    requires |s| > 0
    requires forall i :: 0 <= i < |s| ==> !IsSpace(s[i]) && !IsAsciiDigit(s[i])
    ensures NumericValue(Text(s)) == None
  {
    StripNoSpace(s);
    var k := IndexOf(s, '.');
    if k == |s| {
      assert s[..k] == s && !IsAsciiDigit(s[0]);
    } else if k > 0 {
      assert s[..k][0] == s[0];
    } else if |s| >= 2 {
      assert s[k + 1..][0] == s[1];
    }
  }

  /** The list `numbers` after the loop has seen all of `vals`. */
  function RescueItems(vals: seq<Cell>): seq<string> {
    if vals == [] then []
    else
      var last := NumericValue(vals[|vals| - 1]);
      RescueItems(vals[..|vals| - 1]) + (if last.Some? then [Pad2(last.value)] else [])
  }

  /** The value `parse_rescue_numbers` returns. */
  function RescueString(val1: Cell, val2: Cell): string {
    Join(",", RescueItems([val1, val2]))
  }

  /** `parse_rescue_numbers(val1, val2)`. */
  method ParseRescueNumbers(val1: Cell, val2: Cell) returns (r: string)
    ensures r == RescueString(val1, val2)
  {
    var vals := [val1, val2];
    var numbers: seq<string> := [];
    for i := 0 to 2
      invariant numbers == RescueItems(vals[..i])
    {
      assert vals[..i + 1][..i] == vals[..i];
      var n := NumericValue(vals[i]);
      if n.Some? {
        numbers := numbers + [Pad2(n.value)];
      }
    }
    assert vals[..2] == vals;
    r := Join(",", numbers);
  }

  // ---------------------------------------------------------------------
  // Properties of the token rule

  /** A present numeric cell gives the same text through `parse_duty_string`
      as through `format_number`. */
  lemma DutyStringOfNumber(n: nat)
    ensures DutyString(Num(n)) == Pad2(n)
    ensures DutyString(Num(n)) == FormatNumber(Num(n))
  {
    var s := NatToString(n);
    assert NoSeparator(s) by {
      forall i | 0 <= i < |s| ensures !IsSeparator(s[i]) {
        assert IsAsciiDigit(s[i]);
      }
    }
    StripNoSpace(s);
    SplitNoSeparator(s);
    assert FormatParts([s]) == FormatParts([]) + FormatPart(s) by {
      assert [s][..0] == [];
    }
  }

  /** Missing or blank input gives the empty string, from both
      `format_number` and `parse_duty_string`. */
  lemma BlankGivesEmpty(s: string)
    requires forall i :: 0 <= i < |s| ==> IsSpace(s[i])
    ensures FormatNumber(Empty) == "" && DutyString(Empty) == ""
    ensures FormatNumber(Text(s)) == "" && DutyString(Text(s)) == ""
  {
    LStripSuffix(s);
  }

  lemma SplitNoSeparator(s: string)
    requires NoSeparator(s)
    ensures SplitSeparators(s) == [s]
  {
  }

  /** A non-empty run of separators. */
  predicate SeparatorRun(r: string) {
    |r| > 0 && forall i :: 0 <= i < |r| ==> IsSeparator(r[i])
  }

  /** The empty piece `re.split` gives for a leading or trailing run. */
  function EdgePiece(run: string): seq<string> {
    if run == [] then [] else [""]
  }

  /** A token of an ID list: non-empty, without separators. */
  predicate IsToken(t: string) {
    |t| > 0 && NoSeparator(t)
  }

  /** The tokens `ts` with the separator run `runs[i]` between `ts[i]` and
      `ts[i + 1]`: the shape of an ID list such as `10. 14.1`. */
  function Interleave(ts: seq<string>, runs: seq<string>): (r: string)
    requires |ts| >= 1 && |runs| == |ts| - 1
    ensures |ts[0]| > 0 ==> |r| > 0 && r[0] == ts[0][0]
  {
    if |ts| == 1 then ts[0] else ts[0] + runs[0] + Interleave(ts[1..], runs[1..])
  }

  /** Splitting a token, a run of separators and a text that is empty or
      starts with a non-separator gives the token and then the pieces of that
      text. The token may be empty, as before a leading run. */
  lemma SplitFirst(t: string, sep: string, rest: string)
    requires NoSeparator(t)
    requires SeparatorRun(sep)
    requires rest == [] || !IsSeparator(rest[0])
    ensures SplitSeparators(t + sep + rest) == [t] + SplitSeparators(rest)
  {
    var s := t + sep + rest;
    var k := FirstSeparator(s);
    assert s[|t|] == sep[0];
    assert forall i :: 0 <= i < |t| ==> s[i] == t[i];
    assert k == |t|;
    var e := SeparatorRunEnd(s, k);
    assert forall i :: |t| <= i < |t| + |sep| ==> s[i] == sep[i - |t|];
    assert rest != [] ==> s[|t| + |sep|] == rest[0];
    assert e == |t| + |sep|;
    assert s[..k] == t && s[e..] == rest;
  }

  /** The tokens of an interleaving, followed by an optional trailing run,
      split back into the tokens, and an empty piece for the trailing run. */
  lemma {:induction false} SplitInterleave(ts: seq<string>, runs: seq<string>, trail: string)
    requires |ts| >= 1 && |runs| == |ts| - 1
    requires forall j :: 0 <= j < |ts| ==> IsToken(ts[j])
    requires forall j :: 0 <= j < |runs| ==> SeparatorRun(runs[j])
    requires trail == [] || SeparatorRun(trail)
    ensures SplitSeparators(Interleave(ts, runs) + trail) == ts + EdgePiece(trail)
  {
    var tail := EdgePiece(trail);
    if |ts| == 1 {
      SplitLastToken(ts[0], trail);
      assert ts == [ts[0]];
    } else {
      var t, run := ts[0], runs[0];
      var ts', runs' := ts[1..], runs[1..];
      assert IsToken(t) && IsToken(ts'[0]) && SeparatorRun(run);
      var rest := Interleave(ts', runs') + trail;
      assert Interleave(ts, runs) + trail == t + run + rest;
      calc {
        SplitSeparators(t + run + rest);
        { SplitFirst(t, run, rest); }
        [t] + SplitSeparators(rest);
        { SplitInterleave(ts', runs', trail); }
        [t] + (ts' + tail);
        { assert ts == [t] + ts'; }
        ts + tail;
      }
    }
  }

  /** The last token and an optional trailing run. */
  lemma SplitLastToken(t: string, trail: string)
    requires IsToken(t)
    requires trail == [] || SeparatorRun(trail)
    ensures SplitSeparators(t + trail) == [t] + EdgePiece(trail)
  {
    if trail == [] {
      assert t + trail == t;
      SplitNoSeparator(t);
    } else {
      assert t + trail == t + trail + [];
      SplitFirst(t, trail, []);
    }
  }

  /** `re.split` on an ID list: optional leading run, tokens with any
      non-empty run of `.`/whitespace between each pair, optional trailing
      run. The pieces are the tokens in order, with an empty piece for each
      leading or trailing run. */
  lemma SplitRunsRoundTrip(lead: string, ts: seq<string>, runs: seq<string>, trail: string)
    requires |ts| >= 1 && |runs| == |ts| - 1
    requires forall j :: 0 <= j < |ts| ==> IsToken(ts[j])
    requires forall j :: 0 <= j < |runs| ==> SeparatorRun(runs[j])
    requires lead == [] || SeparatorRun(lead)
    requires trail == [] || SeparatorRun(trail)
    ensures SplitSeparators(lead + Interleave(ts, runs) + trail)
         == EdgePiece(lead) + ts + EdgePiece(trail)
  {
    var mid := Interleave(ts, runs);
    var body := mid + trail;
    assert !IsSeparator(body[0]) by {
      assert IsToken(ts[0]);
      assert body[0] == mid[0] == ts[0][0];
    }
    TextAssoc(lead, mid, trail);
    SplitLeadingRun(lead, body);
    SplitInterleave(ts, runs, trail);
    PiecesAssoc(EdgePiece(lead), ts, EdgePiece(trail));
  }

  lemma TextAssoc(a: string, b: string, c: string)
    ensures a + b + c == a + (b + c)
  {
  }

  lemma PiecesAssoc(a: seq<string>, b: seq<string>, c: seq<string>)
    ensures a + (b + c) == a + b + c
  {
  }

  /** An optional leading run gives one empty piece. */
  lemma SplitLeadingRun(lead: string, body: string)
    requires lead == [] || SeparatorRun(lead)
    requires body == [] || !IsSeparator(body[0])
    ensures SplitSeparators(lead + body) == EdgePiece(lead) + SplitSeparators(body)
  {
    if lead == [] {
      assert lead + body == body;
    } else {
      assert lead + body == [] + lead + body;
      SplitFirst([], lead, body);
    }
  }

  /** `FormatToken` applied to every token, in order. */
  function FormatTokens(ts: seq<string>): (r: seq<string>)
    ensures |r| == |ts|
  {
    seq(|ts|, i requires 0 <= i < |ts| => FormatToken(ts[i]))
  }

  /** The loop over the pieces works piece by piece. */
  lemma {:induction false} FormatPartsAppend(a: seq<string>, b: seq<string>)
    ensures FormatParts(a + b) == FormatParts(a) + FormatParts(b)
    decreases |b|
  {
    if b == [] {
      assert a + b == a;
    } else {
      var init, last := b[..|b| - 1], b[|b| - 1];
      var ab := a + b;
      assert ab[..|ab| - 1] == a + init && ab[|ab| - 1] == last;
      calc {
        FormatParts(ab);
        FormatParts(a + init) + FormatPart(last);
        { FormatPartsAppend(a, init); }
        FormatParts(a) + FormatParts(init) + FormatPart(last);
        { PiecesAssoc(FormatParts(a), FormatParts(init), FormatPart(last)); }
        FormatParts(a) + (FormatParts(init) + FormatPart(last));
        FormatParts(a) + FormatParts(b);
      }
    }
  }

  lemma {:induction false} FormatPartsOfTokens(ts: seq<string>)
    requires forall j :: 0 <= j < |ts| ==> IsToken(ts[j])
    ensures FormatParts(ts) == FormatTokens(ts)
  {
    if ts != [] {
      var init, last := ts[..|ts| - 1], ts[|ts| - 1];
      calc {
        FormatParts(ts);
        FormatParts(init) + FormatPart(last);
        { FormatPartsOfTokens(init); FormatPartOfToken(last); }
        FormatTokens(init) + [FormatToken(last)];
        { FormatTokensSnoc(ts); }
        FormatTokens(ts);
      }
    }
  }

  lemma FormatPartOfToken(t: string)
    requires IsToken(t)
    ensures FormatPart(t) == [FormatToken(t)]
  {
    StripNoSpace(t);
  }

  lemma FormatTokensSnoc(ts: seq<string>)
    requires ts != []
    ensures FormatTokens(ts) == FormatTokens(ts[..|ts| - 1]) + [FormatToken(ts[|ts| - 1])]
  {
  }

  /** The ID-list rule: whatever runs of `.`/whitespace separate the tokens,
      and whether or not a run leads or trails, the tokens are formatted one
      by one, keep their order and are joined with ",". */
  lemma IdListOfRuns(lead: string, ts: seq<string>, runs: seq<string>, trail: string)
    requires |ts| >= 1 && |runs| == |ts| - 1
    requires forall j :: 0 <= j < |ts| ==> IsToken(ts[j])
    requires forall j :: 0 <= j < |runs| ==> SeparatorRun(runs[j])
    requires lead == [] || SeparatorRun(lead)
    requires trail == [] || SeparatorRun(trail)
    ensures IdList(lead + Interleave(ts, runs) + trail) == Join(",", FormatTokens(ts))
  {
    var text := lead + Interleave(ts, runs) + trail;
    SplitRunsRoundTrip(lead, ts, runs, trail);
    EdgePieceFormatsToNothing(lead);
    EdgePieceFormatsToNothing(trail);
    FormatPartsOfTokens(ts);
    FormatPartsBetween(EdgePiece(lead), ts, EdgePiece(trail));
    assert IdList(text) == Join(",", FormatParts(SplitSeparators(text)));
  }

  /** Pieces that format to nothing on either side add nothing. */
  lemma FormatPartsBetween(front: seq<string>, ts: seq<string>, back: seq<string>)
    requires FormatParts(front) == [] && FormatParts(back) == []
    ensures FormatParts(front + ts + back) == FormatParts(ts)
  {
    FormatPartsAppend(front + ts, back);
    FormatPartsAppend(front, ts);
    assert FormatParts(front + ts) == FormatParts(ts);
  }

  /** The empty piece of a leading or trailing run is skipped by the loop. */
  lemma EdgePieceFormatsToNothing(run: string)
    ensures FormatParts(EdgePiece(run)) == []
  {
    assert [""][..0] == [];
  }

  /** Text that is all separators splits into two empty pieces, and empty
      text into one. */
  lemma SplitOfSeparators(r: string)
    requires r == [] || SeparatorRun(r)
    ensures r == [] ==> SplitSeparators(r) == [""]
    ensures r != [] ==> SplitSeparators(r) == ["", ""]
  {
    if r != [] {
      assert r == [] + r + [];
      SplitFirst([], r, []);
    }
  }

  /** Text made only of separators holds no ID. */
  lemma IdListOfSeparators(r: string)
    requires r == [] || SeparatorRun(r)
    ensures IdList(r) == ""
  {
    EdgePieceFormatsToNothing(r);
    if r != [] {
      assert r + [] + [] == r;
      SplitOfSeparators(r);
      assert SplitSeparators(r) == EdgePiece(r) + EdgePiece(r);
      FormatPartsAppend(EdgePiece(r), EdgePiece(r));
    }
  }

  lemma SmallTokens()
    ensures FormatToken("10") == "10" && FormatToken("14") == "14" && FormatToken("1") == "01"
  {
    assert DigitsValue("1") == 1 by { assert "1"[..0] == ""; }
    assert DigitsValue("10") == 10 by { assert "10"[..1] == "1"; }
    assert DigitsValue("14") == 14 by { assert "14"[..1] == "1"; }
    assert NatToString(10) == "10" && NatToString(14) == "14";
  }

  lemma InterleaveThree(a: string, b: string, c: string, r1: string, r2: string)
    ensures Interleave([a, b, c], [r1, r2]) == a + r1 + b + r2 + c
  {
    assert [a, b, c][1..] == [b, c] && [b, c][1..] == [c];
    assert [r1, r2][1..] == [r2] && [r2][1..] == [];
    assert Interleave([b, c], [r2]) == b + r2 + c;
  }

  lemma JoinThree(sep: string, x: string, y: string, z: string)
    ensures Join(sep, [x, y, z]) == x + sep + y + sep + z
  {
    assert [x, y, z][1..] == [y, z];
    JoinSmall(sep, y, z);
  }

  /** Three tokens with a run of separators between each pair. */
  lemma IdListOfThree(a: string, b: string, c: string, r1: string, r2: string)
    requires IsToken(a) && IsToken(b) && IsToken(c)
    requires SeparatorRun(r1) && SeparatorRun(r2)
    ensures IdList(a + r1 + b + r2 + c) == FormatToken(a) + "," + FormatToken(b) + "," + FormatToken(c)
  {
    var ts, runs := [a, b, c], [r1, r2];
    calc {
      IdList(a + r1 + b + r2 + c);
      { InterleaveThree(a, b, c, r1, r2); assert [] + Interleave(ts, runs) + [] == a + r1 + b + r2 + c; }
      IdList([] + Interleave(ts, runs) + []);
      { assert forall j :: 0 <= j < |ts| ==> IsToken(ts[j]);
        assert forall j :: 0 <= j < |runs| ==> SeparatorRun(runs[j]);
        IdListOfRuns([], ts, runs, []); }
      Join(",", FormatTokens(ts));
      { assert FormatTokens(ts) == [FormatToken(a), FormatToken(b), FormatToken(c)]; }
      Join(",", [FormatToken(a), FormatToken(b), FormatToken(c)]);
      { JoinThree(",", FormatToken(a), FormatToken(b), FormatToken(c)); }
      FormatToken(a) + "," + FormatToken(b) + "," + FormatToken(c);
    }
  }

  /** The tokens of the examples `10.14.1` and `10. 14.1`. */
  lemma ExampleTokens()
    ensures IsToken("10") && IsToken("14") && IsToken("1")
    ensures SeparatorRun(".") && SeparatorRun(". ")
  {
  }

  lemma IdListExample()
    ensures IdList("10.14.1") == "10,14,01"
  {
    calc {
      IdList("10.14.1");
      { assert "10.14.1" == "10" + "." + "14" + "." + "1"; }
      IdList("10" + "." + "14" + "." + "1");
      { ExampleTokens(); IdListOfThree("10", "14", "1", ".", "."); }
      FormatToken("10") + "," + FormatToken("14") + "," + FormatToken("1");
      { SmallTokens(); }
      "10" + "," + "14" + "," + "01";
      "10,14,01";
    }
  }

  /** A run of a full stop and a space separates like a full stop alone. */
  lemma IdListMixedRunsExample()
    ensures IdList("10. 14.1") == "10,14,01"
  {
    calc {
      IdList("10. 14.1");
      { assert "10. 14.1" == "10" + ". " + "14" + "." + "1"; }
      IdList("10" + ". " + "14" + "." + "1");
      { ExampleTokens(); IdListOfThree("10", "14", "1", ". ", "."); }
      FormatToken("10") + "," + FormatToken("14") + "," + FormatToken("1");
      { SmallTokens(); }
      "10" + "," + "14" + "," + "01";
      "10,14,01";
    }
  }

  /** Leading and trailing whitespace, as inside `( 10.1 )`, adds no token. */
  lemma IdListSpacedExample()
    ensures IdList(" 10.1 ") == "10,01"
  {
    calc {
      IdList(" 10.1 ");
      { SpacedExampleText(); }
      IdList(" " + Interleave(["10", "1"], ["."]) + " ");
      { SpacedExampleText(); IdListOfRuns(" ", ["10", "1"], ["."], " "); }
      Join(",", FormatTokens(["10", "1"]));
      { SpacedExampleFormatted(); }
      "10,01";
    }
  }

  lemma SpacedExampleText()
    ensures " " + Interleave(["10", "1"], ["."]) + " " == " 10.1 "
    ensures IsToken(["10", "1"][0]) && IsToken(["10", "1"][1])
    ensures SeparatorRun(" ") && SeparatorRun(["."][0])
  {
    assert ["10", "1"][1..] == ["1"] && ["."][1..] == [];
    assert Interleave(["10", "1"], ["."]) == "10.1";
  }

  lemma SpacedExampleFormatted()
    ensures Join(",", FormatTokens(["10", "1"])) == "10,01"
  {
    SmallTokens();
    assert FormatTokens(["10", "1"]) == ["10", "01"];
    JoinSmall(",", "10", "01");
  }

  /** A text value with no surrounding whitespace goes straight to the
      ID-list rule. */
  lemma DutyStringOfText(s: string)
    requires s != "" && Strip(s) == s
    ensures DutyString(Text(s)) == IdList(s)
  {
  }

  /** The examples of the module's own documentation. */
  lemma DutyStringExamples()
    ensures DutyString(Text("10.14.1")) == "10,14,01"
  {
    StripNoSpace("10.14.1");
    DutyStringOfText("10.14.1");
    IdListExample();
  }

  // ---------------------------------------------------------------------
  // Properties of the rescue pair

  /** `parse_rescue_numbers` keeps, in order, the padded value of each
      argument that converts to a number and drops the others. */
  lemma RescueCases(val1: Cell, val2: Cell)
    ensures var a, b := NumericValue(val1), NumericValue(val2);
      RescueString(val1, val2) ==
        if a.Some? && b.Some? then Pad2(a.value) + "," + Pad2(b.value)
        else if a.Some? then Pad2(a.value)
        else if b.Some? then Pad2(b.value)
        else ""
  {
    var vals := [val1, val2];
    assert vals[..1] == [val1] && [val1][..0] == [];
    var a, b := NumericValue(val1), NumericValue(val2);
    var first := if a.Some? then [Pad2(a.value)] else [];
    assert RescueItems([val1]) == first;
    assert RescueItems(vals) == first + (if b.Some? then [Pad2(b.value)] else []);
    if a.Some? && b.Some? {
      JoinSmall(",", Pad2(a.value), Pad2(b.value));
    }
  }

  lemma RescueExamples()
    ensures RescueString(Num(8), Num(20)) == "08,20"
    ensures RescueString(Empty, Num(20)) == "20"
    ensures RescueString(Empty, Empty) == ""
  {
    PadExamples();
    calc {
      RescueString(Num(8), Num(20));
      { RescueCases(Num(8), Num(20)); }
      Pad2(8) + "," + Pad2(20);
      "08,20";
    }
    calc {
      RescueString(Empty, Num(20));
      { RescueCases(Empty, Num(20)); }
      Pad2(20);
    }
    RescueCases(Empty, Empty);
  }

  lemma PadExamples()
    ensures Pad2(8) == "08" && Pad2(20) == "20"
  {
    assert NatToString(20) == "20";
  }

  /** A value that is not a number is dropped; a decimal is truncated. */
  lemma RescueTextExamples()
    ensures RescueString(Text("x"), Num(3)) == "03"
    ensures RescueString(Text("8.5"), Empty) == "08"
  {
    RescueWordExample();
    RescueDecimalExample();
  }

  /** An unparseable first value is dropped. */
  lemma RescueWordExample()
    ensures RescueString(Text("x"), Num(3)) == "03"
  {
    WordDoesNotConvert("x");
    RescueCases(Text("x"), Num(3));
  }

  /** `int(float("8.5"))` is 8. */
  lemma DecimalExampleValue()
    ensures NumericValue(Text("8.5")) == Some(8)
  {
    calc {
      NumericValue(Text("8.5"));
      { assert "8" + "." + "5" == "8.5"; }
      NumericValue(Text("8" + "." + "5"));
      { DecimalTruncates("8", "5"); }
      Some(DigitsValue("8"));
      { assert "8"[..0] == ""; }
      Some(8);
    }
  }

  /** A decimal rescue value is truncated and padded. */
  lemma RescueDecimalExample()
    ensures RescueString(Text("8.5"), Empty) == "08"
  {
    DecimalExampleValue();
    PadExamples();
    calc {
      RescueString(Text("8.5"), Empty);
      { RescueCases(Text("8.5"), Empty); }
      Pad2(8);
    }
  }
}

=== FILE: pipeline.dfy ===
/** `process_files` (processor.py:334-356): extract one day's record from
    the roster, fill the template and name the result. */
module Pipeline {
  import opened Options
  import opened Extractor
  import opened Filler
  import opened Dates

  /** The ways `process_files` fails before it writes anything: the sheet
      is not in the roster workbook (`read_excel` raises), or it is too
      small for the fixed rows and columns `extract_duty_data` reads
      (`iloc` raises). */
  datatype ProcessError = SheetNotFound(name: string) | SheetUnreadable(name: string)

  /** `process_files(duty_file, template_file, date_sheet)`, with the roster
      workbook given as its sheets by name and the template as its active
      worksheet. On success the worksheet is filled and the suggested file
      name is returned; on failure the worksheet is untouched. */
  method ProcessFiles(book: map<string, Sheet>, template: Worksheet, dateSheet: string)
    returns (result: Result<string, ProcessError>)
    modifies template
    ensures dateSheet !in book ==> result == Failure(SheetNotFound(dateSheet))
    ensures dateSheet in book && !Readable(book[dateSheet]) ==> result == Failure(SheetUnreadable(dateSheet))
    ensures result.Failure? ==> template.cells == old(template.cells)
    ensures dateSheet in book && Readable(book[dateSheet]) ==>
      && result == Success(SuggestedFilename(dateSheet))
      && template.cells == Filled(old(template.cells), DutyRecordOf(book[dateSheet]))
  {
    if dateSheet !in book {
      return Failure(SheetNotFound(dateSheet));
    }
    var sheet := book[dateSheet];
    if !Readable(sheet) {
      return Failure(SheetUnreadable(dateSheet));
    }
    var data := ExtractDutyData(sheet);
    template.FillDistributionTable(data);
    result := Success(SuggestedFilename(dateSheet));
  }
}

=== FILE: strings.dfy ===
/** Optional and fallible values, used for the column lookup and for the
    errors the processing pipeline raises. */
module Options {
  datatype Option<+T> = None | Some(value: T)

  datatype Result<+T, +E> = Success(value: T) | Failure(error: E)
}

/** String helpers that stand for the Python built-ins the processor uses:
    `str.strip`, `str.rstrip`, `str.replace`, `str.join`, `in` on strings,
    decimal rendering of integers and `f"{n:02d}"`. */
module Strings {

  /** The characters Python's `str.isspace()` (and the regular-expression
      class `\s` on `str` patterns) accept, as ranges of code points. */
  predicate IsSpace(c: char) {
    ('\t' <= c <= '\r') || ('\U{1C}' <= c <= ' ') || c == '\U{85}' || c == '\U{A0}'
    || c == '\U{1680}' || ('\U{2000}' <= c <= '\U{200A}') || c == '\U{2028}' || c == '\U{2029}'
    || c == '\U{202F}' || c == '\U{205F}' || c == '\U{3000}'
  }

  predicate IsAsciiDigit(c: char) { '0' <= c <= '9' }

  /** `s.find(c)`, with `|s|` in place of -1: the first position of `c`. */
  function IndexOf(s: string, c: char): (k: nat)
    ensures k <= |s|
    ensures k < |s| ==> s[k] == c
    ensures forall i :: 0 <= i < k ==> s[i] != c
  {
    if s == [] || s[0] == c then 0 else 1 + IndexOf(s[1..], c)
  }

  /** A non-empty run of ASCII digits: the tokens the model treats as numbers. */
  predicate DigitString(s: string) {
    |s| > 0 && forall i :: 0 <= i < |s| ==> IsAsciiDigit(s[i])
  }

  function DigitChar(d: nat): (c: char)
    requires d < 10
    ensures IsAsciiDigit(c) && c as int - '0' as int == d
  {
    ['0', '1', '2', '3', '4', '5', '6', '7', '8', '9'][d]
  }

  function DigitValue(c: char): nat
    requires IsAsciiDigit(c)
  {
    c as int - '0' as int
  }

  /** The value of a string of decimal digits (most significant first). */
  function DigitsValue(s: string): nat
    requires forall i :: 0 <= i < |s| ==> IsAsciiDigit(s[i])
  {
    if s == [] then 0
    else DigitsValue(s[..|s| - 1]) * 10 + DigitValue(s[|s| - 1])
  }

  /** `str(n)` for a non-negative integer: shortest decimal rendering. */
  function NatToString(n: nat): (r: string)
    ensures DigitString(r) && DigitsValue(r) == n
    ensures |r| > 1 ==> r[0] != '0'
    ensures n < 10 <==> |r| == 1
    ensures n < 100 ==> |r| <= 2
  {
    if n < 10 then [DigitChar(n)]
    else
      var r := NatToString(n / 10) + [DigitChar(n % 10)];
      assert r[..|r| - 1] == NatToString(n / 10);
      r
  }

  /** `f"{n:02d}"`: decimal, left-padded with zeros to at least two digits. */
  function Pad2(n: nat): (r: string)
    ensures DigitString(r) && DigitsValue(r) == n
    ensures |r| >= 2
    ensures n < 100 ==> |r| == 2
    ensures n >= 10 ==> r == NatToString(n)
  {
    if n < 10 then
      var r := ['0', DigitChar(n)];
      assert r[..1] == ['0'] && ['0'][..0] == [];
      r
    else NatToString(n)
  }

  /** `s.lstrip()`: removes leading whitespace. */
  function LStrip(s: string): (r: string)
    ensures |r| <= |s|
    ensures r == [] || !IsSpace(r[0])
  {
    if s != [] && IsSpace(s[0]) then LStrip(s[1..]) else s
  }

  /** What `LStrip` keeps is a suffix, and what it drops is whitespace. */
  lemma {:induction false} LStripSuffix(s: string)
    ensures LStrip(s) == s[|s| - |LStrip(s)|..]
    ensures forall i :: 0 <= i < |s| - |LStrip(s)| ==> IsSpace(s[i])
  {
    if s != [] && IsSpace(s[0]) {
      LStripSuffix(s[1..]);
    }
  }

  /** `s.rstrip()`: removes trailing whitespace. */
  function RStrip(s: string): (r: string)
    ensures |r| <= |s|
    ensures r == [] || !IsSpace(r[|r| - 1])
  {
    if s != [] && IsSpace(s[|s| - 1]) then RStrip(s[..|s| - 1]) else s
  }

  /** What `RStrip` keeps is a prefix, and what it drops is whitespace. */
  lemma {:induction false} RStripPrefix(s: string)
    ensures RStrip(s) == s[..|RStrip(s)|]
    ensures forall i :: |RStrip(s)| <= i < |s| ==> IsSpace(s[i])
  {
    if s != [] && IsSpace(s[|s| - 1]) {
      RStripPrefix(s[..|s| - 1]);
    }
  }

  /** `s.rstrip(c)`: removes every trailing `c`. */
  function RStripChar(s: string, c: char): (r: string)
    ensures |r| <= |s|
    ensures r == [] || r[|r| - 1] != c
  {
    if s != [] && s[|s| - 1] == c then RStripChar(s[..|s| - 1], c) else s
  }

  /** What `RStripChar` keeps is a prefix, and what it drops is `c`. */
  lemma {:induction false} RStripCharPrefix(s: string, c: char)
    ensures RStripChar(s, c) == s[..|RStripChar(s, c)|]
    ensures forall i :: |RStripChar(s, c)| <= i < |s| ==> s[i] == c
  {
    if s != [] && s[|s| - 1] == c {
      RStripCharPrefix(s[..|s| - 1], c);
    }
  }

  /** `s.strip()`: removes leading and trailing whitespace. */
  function Strip(s: string): string {
    RStrip(LStrip(s))
  }

  /** A string without whitespace is its own `strip()`. */
  lemma StripNoSpace(s: string)
    requires forall i :: 0 <= i < |s| ==> !IsSpace(s[i])
    ensures Strip(s) == s
  {
    assert s != [] ==> !IsSpace(s[0]) && !IsSpace(s[|s| - 1]);
  }

  /** `sep.join(xs)`. */
  function Join(sep: string, xs: seq<string>): string {
    if xs == [] then ""
    else if |xs| == 1 then xs[0]
    else xs[0] + sep + Join(sep, xs[1..])
  }

  /** `Join` of a one- or two-element list, spelled out. */
  lemma JoinSmall(sep: string, a: string, b: string)
    ensures Join(sep, [a]) == a
    ensures Join(sep, [a, b]) == a + sep + b
  {
    assert [a, b][1..] == [b];
  }

  /** Python's `needle in s` on strings: `needle` is a prefix of some
      suffix of `s` (the empty needle is in every string). */
  predicate Contains(s: string, needle: string)
    decreases |s|
  {
    needle <= s || (s != [] && Contains(s[1..], needle))
  }

  /** `Contains` holds exactly when `needle` occurs at some index of `s`. */
  lemma {:induction false} ContainsSpec(s: string, needle: string)
    ensures Contains(s, needle) <==> exists i :: 0 <= i <= |s| - |needle| && needle <= s[i..]
    decreases |s|
  {
    assert s[0..] == s;
    if s != [] {
      ContainsSpec(s[1..], needle);
      if Contains(s[1..], needle) {
        var i :| 0 <= i <= |s| - 1 - |needle| && needle <= s[1..][i..];
        assert s[1..][i..] == s[i + 1..];
      }
      forall i | 1 <= i <= |s| - |needle| && needle <= s[i..] ensures Contains(s[1..], needle) {
        assert s[1..][i - 1..] == s[i..];
      }
    }
  }

  /** `s.replace(a, "")` for every `a` in `cs`, applied one after another. */
  function RemoveChars(s: string, cs: set<char>): (r: string)
    ensures forall i :: 0 <= i < |r| ==> r[i] !in cs
  {
    if s == [] then []
    else if s[0] in cs then RemoveChars(s[1..], cs)
    else [s[0]] + RemoveChars(s[1..], cs)
  }

  /** Removal works character by character: it distributes over
      concatenation, so the kept characters stay in their order. */
  lemma {:induction false} RemoveCharsAppend(a: string, b: string, cs: set<char>)
    ensures RemoveChars(a + b, cs) == RemoveChars(a, cs) + RemoveChars(b, cs)
    decreases |a|
  {
    if a != [] {
      assert (a + b)[0] == a[0] && (a + b)[1..] == a[1..] + b;
      RemoveCharsAppend(a[1..], b, cs);
    } else {
      assert a + b == b;
    }
  }

  /** A character of `cs` is dropped and any other is kept. */
  lemma RemoveCharsSingle(c: char, cs: set<char>)
    ensures RemoveChars([c], cs) == if c in cs then [] else [c]
  {
  }

  /** A text without characters of `cs` is kept whole. */
  lemma {:induction false} RemoveCharsNone(s: string, cs: set<char>)
    requires forall i :: 0 <= i < |s| ==> s[i] !in cs
    ensures RemoveChars(s, cs) == s
    decreases |s|
  {
    if s != [] {
      RemoveCharsNone(s[1..], cs);
      assert s == [s[0]] + s[1..];
    }
  }

  /** `s.replace(pat, rep)`: left to right, non-overlapping occurrences. */
  function ReplaceAll(s: string, pat: string, rep: string): string
    requires |pat| > 0
    decreases |s|
  {
    if |s| < |pat| then s
    else if s[..|pat|] == pat then rep + ReplaceAll(s[|pat|..], pat, rep)
    else [s[0]] + ReplaceAll(s[1..], pat, rep)
  }
}

=== FILE: textrules.dfy ===
/** The text normalisations inside `extract_duty_data`: the remarks clean-up
    (processor.py:202-208), the rewrite of parenthesised numbers in the
    dispatch text (processor.py:217-232) and the vehicle-maintenance line
    (processor.py:238-242). */
module TextRules {
  import opened Strings
  import opened Cells
  import opened IdFormat

  // ---------------------------------------------------------------------
  // Remarks

  /** Whether `s` begins with the label `備註` and a half- or full-width
      colon, the prefix that `^備註[:：]` matches. */
  predicate HasRemarksLabel(s: string) {
    |s| >= 3 && s[0] == '備' && s[1] == '註' && (s[2] == ':' || s[2] == '：')
  }

  /** `re.sub(r'^備註[:：]\s*', '', s)`: drops the label, its colon and the
      whitespace after it. */
  function StripRemarksLabel(s: string): string {
    if HasRemarksLabel(s) then LStrip(s[3..]) else s
  }

  /** The remarks chain: label removed, `。※` turned into a line break before
      `※`, full-width colons made half-width, trailing full stops removed. */
  function NormalizeRemarks(s: string): string {
    var noLabel := StripRemarksLabel(s);
    var lines := ReplaceAll(noLabel, "。※", "\n※");
    var colons := ReplaceAll(lines, "：", ":");
    RStripChar(colons, '。')
  }

  /** No full stop `。` is directly followed by the marker `※`. */
  predicate NoPeriodMarker(s: string) {
    forall i :: 0 <= i < |s| - 1 ==> !(s[i] == '。' && s[i + 1] == '※')
  }

  /** `LStrip` drops exactly the whitespace in front of the first
      non-whitespace character. */
  lemma {:induction false} LStripSpaces(ws: string, t: string)
    requires forall i :: 0 <= i < |ws| ==> IsSpace(ws[i])
    requires t == [] || !IsSpace(t[0])
    ensures LStrip(ws + t) == t
  {
    if ws != [] {
      assert (ws + t)[1..] == ws[1..] + t;
      LStripSpaces(ws[1..], t);
    }
  }

  /** One leading label, its colon and the whitespace after it are removed;
      text without the label is left as it is (`StripRemarksLabelUnchanged`). */
  lemma StripRemarksLabelSpec(colon: char, ws: string, t: string)
    requires colon == ':' || colon == '：'
    requires forall i :: 0 <= i < |ws| ==> IsSpace(ws[i])
    requires t == [] || !IsSpace(t[0])
    ensures StripRemarksLabel("備註" + [colon] + ws + t) == t
  {
    var s := "備註" + [colon] + ws + t;
    assert s[3..] == ws + t;
    LStripSpaces(ws, t);
  }

  /** The label rule changes the text exactly when the text starts with the
      label. */
  lemma StripRemarksLabelUnchanged(s: string)
    ensures StripRemarksLabel(s) == s <==> !HasRemarksLabel(s)
  {
    if HasRemarksLabel(s) {
      assert |StripRemarksLabel(s)| <= |s| - 3;
    }
  }

  lemma {:induction false} ReplaceMarkerNoPair(s: string)
    ensures NoPeriodMarker(ReplaceAll(s, "。※", "\n※"))
    // a marker at the front of the result was already at the front of the input
    ensures var r := ReplaceAll(s, "。※", "\n※"); r != [] && r[0] == '※' ==> s != [] && s[0] == '※'
    decreases |s|
  {
    var r := ReplaceAll(s, "。※", "\n※");
    if |s| < 2 {
    } else if s[..2] == "。※" {
      ReplaceMarkerNoPair(s[2..]);
      var rest := ReplaceAll(s[2..], "。※", "\n※");
      assert r == "\n※" + rest;
      assert forall i :: 2 <= i < |r| ==> r[i] == rest[i - 2];
    } else {
      ReplaceMarkerNoPair(s[1..]);
      var rest := ReplaceAll(s[1..], "。※", "\n※");
      assert r == [s[0]] + rest;
      assert forall i :: 1 <= i < |r| ==> r[i] == rest[i - 1];
      assert s[..2] == [s[0], s[1]];
    }
  }

  /** A full stop directly followed by the marker starts at `i`. */
  predicate MarkerAt(s: string, i: int) {
    0 <= i && i + 1 < |s| && s[i] == '。' && s[i + 1] == '※'
  }

  /** `replace('。※', '\n※')` changes exactly the `。` of each `。※` pair into
      a line break and keeps every other character where it was; the pairs
      cannot overlap, since `。` and `※` differ. */
  lemma {:induction false} ReplaceMarkerPointwise(s: string)
    ensures |ReplaceAll(s, "。※", "\n※")| == |s|
    ensures forall i :: 0 <= i < |s| ==>
      ReplaceAll(s, "。※", "\n※")[i] == if MarkerAt(s, i) then '\n' else s[i]
    decreases |s|
  {
    var r := ReplaceAll(s, "。※", "\n※");
    if |s| < 2 {
    } else if s[..2] == "。※" {
      ReplaceMarkerPointwise(s[2..]);
      var rest := ReplaceAll(s[2..], "。※", "\n※");
      assert r == "\n※" + rest;
      assert s[0] == '。' && s[1] == '※';
      assert r[0] == '\n' && r[1] == '※';
      forall i | 2 <= i < |s|
        ensures r[i] == if MarkerAt(s, i) then '\n' else s[i]
      {
        var t, j := s[2..], i - 2;
        assert rest[j] == if MarkerAt(t, j) then '\n' else t[j];
        assert r[i] == rest[j] && s[i] == t[j];
        assert i + 1 < |s| ==> s[i + 1] == t[j + 1];
      }
    } else {
      ReplaceMarkerPointwise(s[1..]);
      var rest := ReplaceAll(s[1..], "。※", "\n※");
      assert r == [s[0]] + rest;
      assert s[..2] == [s[0], s[1]];
      forall i | 1 <= i < |s|
        ensures r[i] == if MarkerAt(s, i) then '\n' else s[i]
      {
        var t, j := s[1..], i - 1;
        assert rest[j] == if MarkerAt(t, j) then '\n' else t[j];
        assert r[i] == rest[j] && s[i] == t[j];
        assert i + 1 < |s| ==> s[i + 1] == t[j + 1];
      }
    }
  }

  /** Replacing one character by another changes exactly the occurrences of
      that character. */
  lemma {:induction false} ReplaceCharPointwise(s: string, a: char, b: char)
    ensures |ReplaceAll(s, [a], [b])| == |s|
    ensures forall i :: 0 <= i < |s| ==> ReplaceAll(s, [a], [b])[i] == if s[i] == a then b else s[i]
    decreases |s|
  {
    if |s| >= 1 {
      ReplaceCharPointwise(s[1..], a, b);
      var rest := ReplaceAll(s[1..], [a], [b]);
      assert s[..1] == [s[0]];
      assert ReplaceAll(s, [a], [b]) == (if s[0] == a then [b] else [s[0]]) + rest;
    }
  }

  /** What the remarks chain guarantees: no full-width colon, no `。※`
      left (each became a line break before `※`) and no trailing `。`. */
  lemma NormalizeRemarksClean(s: string)
    ensures var r := NormalizeRemarks(s);
      && (forall i :: 0 <= i < |r| ==> r[i] != '：')
      && NoPeriodMarker(r)
      && (r == [] || r[|r| - 1] != '。')
  {
    var noLabel := StripRemarksLabel(s);
    var lines := ReplaceAll(noLabel, "。※", "\n※");
    var colons := ReplaceAll(lines, "：", ":");
    var r := RStripChar(colons, '。');
    ReplaceMarkerNoPair(noLabel);
    ReplaceCharPointwise(lines, '：', ':');
    assert NoPeriodMarker(colons) by {
      forall i | 0 <= i < |colons| - 1 ensures !(colons[i] == '。' && colons[i + 1] == '※') {
        assert !(lines[i] == '。' && lines[i + 1] == '※');
      }
    }
    RStripCharPrefix(colons, '。');
    assert forall i :: 0 <= i < |r| ==> r[i] == colons[i];
  }

  lemma ConsAssoc(c: char, a: string, b: string)
    ensures [c] + (a + b) == ([c] + a) + b
  {
  }

  /** `ReplaceAll` copies a prefix in which the pattern cannot start. */
  lemma {:induction false} ReplaceAllSkip(pre: string, s: string, pat: string, rep: string)
    requires |pat| > 0 && pat[0] !in pre
    ensures ReplaceAll(pre + s, pat, rep) == pre + ReplaceAll(s, pat, rep)
    decreases |pre|
  {
    if pre != [] {
      var t := pre + s;
      assert t[0] == pre[0] && t[1..] == pre[1..] + s;
      assert pre[0] in pre;
      assert pat[0] !in pre[1..] by {
        assert forall x :: x in pre[1..] ==> x in pre;
      }
      ReplaceAllSkip(pre[1..], s, pat, rep);
      if |t| < |pat| {
        assert ReplaceAll(s, pat, rep) == s;
      } else {
        assert t[..|pat|][0] == pre[0];
        assert ReplaceAll(t, pat, rep) == [pre[0]] + ReplaceAll(pre[1..] + s, pat, rep);
      }
      ConsAssoc(pre[0], pre[1..], ReplaceAll(s, pat, rep));
      assert pre == [pre[0]] + pre[1..];
    } else {
      assert pre + s == s;
    }
  }

  /** `ReplaceAll` rewrites an occurrence at the front. */
  lemma ReplaceAllHit(pat: string, s: string, rep: string)
    requires |pat| > 0
    ensures ReplaceAll(pat + s, pat, rep) == rep + ReplaceAll(s, pat, rep)
  {
    assert (pat + s)[..|pat|] == pat && (pat + s)[|pat|..] == s;
  }

  lemma RemarksLines()
    ensures ReplaceAll("晨間訓練。※注意。", "。※", "\n※") == "晨間訓練\n※注意。"
  {
    var p, r := "。※", "\n※";
    assert "晨間訓練。※注意。" == "晨間訓練" + (p + "注意。");
    ReplaceAllSkip("晨間訓練", p + "注意。", p, r);
    ReplaceAllHit(p, "注意。", r);
    assert "注意。" == "注意" + "。";
    ReplaceAllSkip("注意", "。", p, r);
    assert "晨間訓練" + (r + ("注意" + "。")) == "晨間訓練\n※注意。";
  }

  /** The remarks chain, one stage at a time. */
  lemma NormalizeRemarksStages(s: string, noLabel: string, lines: string, colons: string)
    requires StripRemarksLabel(s) == noLabel
    requires ReplaceAll(noLabel, "。※", "\n※") == lines
    requires ReplaceAll(lines, "：", ":") == colons
    ensures NormalizeRemarks(s) == RStripChar(colons, '。')
  {
  }

  lemma RemarksLabelExample()
    ensures StripRemarksLabel("備註:晨間訓練。※注意。") == "晨間訓練。※注意。"
  {
    StripRemarksLabelSpec(':', "", "晨間訓練。※注意。");
    assert "備註" + [':'] + "" + "晨間訓練。※注意。" == "備註:晨間訓練。※注意。";
  }

  lemma RemarksTrailExample()
    ensures ReplaceAll("晨間訓練\n※注意。", "：", ":") == "晨間訓練\n※注意。"
    ensures RStripChar("晨間訓練\n※注意。", '。') == "晨間訓練\n※注意"
  {
    var lines := "晨間訓練\n※注意。";
    ReplaceAllSkip(lines, "", "：", ":");
    assert lines + "" == lines;
    assert lines[..|lines| - 1] == "晨間訓練\n※注意";
  }

  lemma RemarksExample()
    ensures NormalizeRemarks("備註:晨間訓練。※注意。") == "晨間訓練\n※注意"
  {
    RemarksLabelExample();
    RemarksLines();
    RemarksTrailExample();
    NormalizeRemarksStages("備註:晨間訓練。※注意。", "晨間訓練。※注意。", "晨間訓練\n※注意。", "晨間訓練\n※注意。");
  }

  // ---------------------------------------------------------------------
  // Dispatch

  /** `re.sub(r'\(([^)]+)\)', format_dispatch_numbers, s)`: scanning left to
      right, a `(` followed by at least one character other than `)` and then
      a `)` is a group; its content is rewritten by the ID-list rule and put
      back between parentheses; every other character is copied. */
  function NormalizeDispatch(s: string): string
    decreases |s|
  {
    if s == [] then []
    else if s[0] == '(' && 0 < IndexOf(s[1..], ')') < |s| - 1 then
      var j := 1 + IndexOf(s[1..], ')');
      "(" + IdList(s[1..j]) + ")" + NormalizeDispatch(s[j + 1..])
    else [s[0]] + NormalizeDispatch(s[1..])
  }

  /** A group of the pattern `\(([^)]+)\)` starts at `i`. */
  predicate GroupAt(s: string, i: int) {
    0 <= i && i + 1 < |s| && s[i] == '(' && s[i + 1] != ')' && ')' in s[i + 1..]
  }

  /** Text in which no group starts is returned unchanged. */
  lemma DispatchWithoutGroupUnchanged(s: string)
    requires forall i :: 0 <= i < |s| ==> !GroupAt(s, i)
    ensures NormalizeDispatch(s) == s
  {
    assert s + [] == s;
    DispatchPrefix(s, []);
  }

  /** A group at the front: its content is formatted by the ID-list rule. */
  lemma DispatchGroupAtStart(content: string, post: string)
    requires |content| > 0 && ')' !in content
    ensures NormalizeDispatch("(" + content + ")" + post)
         == "(" + IdList(content) + ")" + NormalizeDispatch(post)
  {
    var s := "(" + content + ")" + post;
    var t := s[1..];
    assert t == content + ")" + post;
    var k := IndexOf(t, ')');
    assert t[|content|] == ')';
    assert k == |content|;
    assert s[1..1 + k] == content;
    assert s[k + 2..] == post;
  }

  /** A prefix in which no group starts is copied, and the scan goes on
      after it; a `(` that opens no group, as in `()`, is copied like any
      other character. */
  lemma {:induction false} DispatchPrefix(pre: string, s: string)
    requires forall i :: 0 <= i < |pre| ==> !GroupAt(pre + s, i)
    ensures NormalizeDispatch(pre + s) == pre + NormalizeDispatch(s)
    decreases |pre|
  {
    if pre != [] {
      var t := pre + s;
      assert t[0] == pre[0] && t[1..] == pre[1..] + s;
      assert !GroupAt(t, 0);
      DispatchCopyFirst(t);
      NoGroupAfterFirst(pre, s);
      calc {
        NormalizeDispatch(t);
        [pre[0]] + NormalizeDispatch(pre[1..] + s);
        { DispatchPrefix(pre[1..], s); }
        [pre[0]] + (pre[1..] + NormalizeDispatch(s));
        { ConsAssoc(pre[0], pre[1..], NormalizeDispatch(s)); }
        ([pre[0]] + pre[1..]) + NormalizeDispatch(s);
        { assert [pre[0]] + pre[1..] == pre; }
        pre + NormalizeDispatch(s);
      }
    } else {
      assert pre + s == s;
    }
  }

  /** Where no group starts, the first character is copied. */
  lemma DispatchCopyFirst(t: string)
    requires t != [] && !GroupAt(t, 0)
    ensures NormalizeDispatch(t) == [t[0]] + NormalizeDispatch(t[1..])
  {
    var k := IndexOf(t[1..], ')');
    assert k < |t| - 1 ==> t[1..][k] == ')' && t[1..][k] in t[1..];
  }

  /** Dropping the first character of a prefix in which no group starts
      leaves a prefix in which no group starts. */
  lemma NoGroupAfterFirst(pre: string, s: string)
    requires pre != []
    requires forall i :: 0 <= i < |pre| ==> !GroupAt(pre + s, i)
    ensures forall i :: 0 <= i < |pre[1..]| ==> !GroupAt(pre[1..] + s, i)
  {
    var t := pre + s;
    assert t[1..] == pre[1..] + s;
    forall i | 0 <= i < |pre[1..]| ensures !GroupAt(pre[1..] + s, i) {
      assert !GroupAt(t, i + 1);
      assert t[1..][i + 1..] == t[i + 2..];
    }
  }

  /** No group starts at a character other than `(`. */
  lemma NoOpenNoGroup(pre: string, s: string)
    requires '(' !in pre
    ensures forall i :: 0 <= i < |pre| ==> !GroupAt(pre + s, i)
  {
    forall i | 0 <= i < |pre| ensures !GroupAt(pre + s, i) {
      assert (pre + s)[i] == pre[i] && pre[i] in pre;
    }
  }

  lemma ConcatAssoc(a: string, b: string, c: string, d: string, e: string)
    ensures a + b + c + d + e == a + (b + c + d + e)
  {
  }

  /** A group is rewritten in place: the text before it (which opens no
      group) is unchanged, the content is formatted by the ID-list rule, and
      the rest is normalised on its own. */
  lemma DispatchGroup(pre: string, content: string, post: string)
    requires forall i :: 0 <= i < |pre| ==> !GroupAt(pre + ("(" + content + ")" + post), i)
    requires |content| > 0 && ')' !in content
    ensures NormalizeDispatch(pre + "(" + content + ")" + post)
         == pre + "(" + IdList(content) + ")" + NormalizeDispatch(post)
  {
    ConcatAssoc(pre, "(", content, ")", post);
    ConcatAssoc(pre, "(", IdList(content), ")", NormalizeDispatch(post));
    DispatchPrefix(pre, "(" + content + ")" + post);
    DispatchGroupAtStart(content, post);
  }

  /** The common case: the text before the group holds no `(` at all. */
  lemma DispatchGroupAfterText(pre: string, content: string, post: string)
    requires '(' !in pre
    requires |content| > 0 && ')' !in content
    ensures NormalizeDispatch(pre + "(" + content + ")" + post)
         == pre + "(" + IdList(content) + ")" + NormalizeDispatch(post)
  {
    NoOpenNoGroup(pre, "(" + content + ")" + post);
    DispatchGroup(pre, content, post);
  }

  lemma DispatchExampleRewrite()
    ensures NormalizeDispatch("16車" + "(" + "10.14.1" + ")" + "") == "16車" + "(" + IdList("10.14.1") + ")" + ""
  {
    DispatchGroupAfterText("16車", "10.14.1", "");
    assert NormalizeDispatch("") == "";
  }

  lemma DispatchExampleGroup()
    ensures NormalizeDispatch("16車" + "(" + "10.14.1" + ")" + "") == "16車" + "(" + "10,14,01" + ")" + ""
  {
    DispatchExampleRewrite();
    IdListExample();
  }

  lemma DispatchExampleText()
    ensures "16車" + "(" + "10.14.1" + ")" + "" == "16車(10.14.1)"
    ensures "16車" + "(" + "10,14,01" + ")" + "" == "16車(10,14,01)"
  {
  }

  lemma DispatchExample()
    ensures NormalizeDispatch("16車(10.14.1)") == "16車(10,14,01)"
  {
    DispatchExampleGroup();
    DispatchExampleText();
  }

  // ---------------------------------------------------------------------
  // Vehicle maintenance

  /** `f"({vehicle_type})保養車輛:{vehicle_num} 保養人:{maintainer}"`. */
  function VehicleLine(kind: Cell, number: Cell, maintainer: Cell): string {
    "(" + CellStr(kind) + ")保養車輛:" + CellStr(number) + " 保養人:" + CellStr(maintainer)
  }
}
